=== FILE: README.md ===
# secateur core, modelled in Dafny

The secateur QGIS plugin extracts, from the WFS layers that are visible in a
project's layer tree, the features that meet the boundary of one French
commune. It does four things:

- It scans the layer tree for visible WFS vector layers.
- For each layer, it reprojects the commune boundary into the layer's CRS.
  It streams the features whose bounding box meets the boundary's bounding
  box. It selects those whose geometry intersects the boundary and copies
  them unchanged; no geometry is clipped.
- It copies each layer that kept something into an in-memory result layer.
  The result layers are published under one "Résultats secateur" group.
  That group is emptied and refilled on every run.
- It exports the result layers, either as one CSV file per layer or as a
  multi-page PDF report.

This project models that core as pure functions and small methods over
immutable data, and proves properties about them.

- `base.dfy`: `Option` and `Result`.
- `seqs.dfy`: order-preserving `Filter` and `Map` over sequences.
- `text.dfy`: the Python `str` behaviour the core relies on:
  - `isspace` / `\s` and `\w`;
  - `upper` and `lower`;
  - `in`, `endswith` and `removesuffix`;
  - `strip`;
  - decimal digit strings.
- `temporal.dfy`: Qt date and time values.
  - Validity: `isValid()` in the proleptic Gregorian calendar, which has no
    year 0.
  - The fixed patterns `yyyy-MM-dd`, `HH:mm:ss` and `yyyy-MM-dd HH:mm:ss`,
    each with a parser as its partner.
- `qgis.dfy`: the QGIS objects the core touches:
  - CRS, geometry, field, value, feature and layer;
  - the layer-tree nodes;
  - progress-callback calls.
  - `Host` holds the four spatial primitives as opaque functions: `intersects`,
    `boundingBox`, `transform` (which may raise) and `getFeatures`.
- `intersector.dfy`: `find_wfs_layers`, `_is_wfs`, `intersect_commune` and
  `add_results_to_project`.
- `export.dfy`: `_format_value`, `_safe_filename`, `export_results_to_csv`
  and `export_results_to_pdf`.

The model has three reference definitions:

- **Scan.** The short-circuiting scan (`Collect`) is proved equal to a full
  traversal that tags each layer node with its effective visibility. A node
  is visible when it and every ancestor, the root included, are checked.
  The reference keeps the eligible nodes of that traversal.
- **Intersection.** The imperative loops of `intersect_commune` are proved
  equal to a per-layer evaluation (`EvaluateLayer`) folded over the layers
  (`Harvest`).
- **Publishing.** Publishing is proved to replace rather than accumulate,
  and to touch nothing but the results group.

A reprojection failure aborts the whole run. The code has no
exception handler around `local_geom.transform(...)`
(`core/intersector.py:57-61`), so the exception leaves `intersect_commune`
after that layer's progress call. The model follows the code:
`IntersectCommune` returns `Err` at the first failing layer, with the calls
made up to that point.

## Model

| member | source | states |
|---|---|---|
| Intersector.IsWfs | core/intersector.py:36-41 | Defines `_is_wfs`: the upper-cased provider is `WFS`, or the lower-cased source contains `service=wfs`, `/wfs?` or `/wfs/`. ProviderIsWfs, IsWfsIgnoresCase and ServiceParameterIsWfs state its consequences. |
| Intersector.ProviderIsWfs | core/intersector.py:37-38 | The provider test accepts exactly the three-letter names w, f, s in any case, where Python's `upper` also maps long s (U+017F) to S. |
| Intersector.IsWfsIgnoresCase | core/intersector.py:36-41 | Classification gives the same answer for two layers whose provider and source differ only in ASCII letter case. |
| Intersector.ServiceParameterIsWfs | core/intersector.py:39-41 | A source URI containing `SERVICE=WFS` is recognised as WFS whatever the provider. |
| Intersector.Collect | core/intersector.py:23-33 | Every layer the scan returns is a vector layer served over WFS, and a hidden parent contributes no layers. |
| Intersector.CollectNode | core/intersector.py:25-33 | One child contributes only WFS vector layers, and nothing under a hidden parent. |
| Intersector.FindWfsLayers | core/intersector.py:15-20 | The scan from the root returns only WFS vector layers. An unchecked root or an empty tree gives no layers. |
| Intersector.CollectIsSelectedLeaves | core/intersector.py:23-33 | The recursive scan equals the reference: every layer node in depth-first order with its effective visibility, keeping the visible WFS vector layers in traversal order. |
| Intersector.CollectNodeIsSelectedLeaves | core/intersector.py:25-33 | The same equality for one node. A group that is not visible hides every layer below it, however deep and however checked. |
| Intersector.FindWfsLayersMembership | core/intersector.py:15-33 | A layer is found iff some layer node holding it is visible (checked, with every ancestor and the root checked) and the layer is a WFS vector layer. |
| Intersector.CollectConcat | core/intersector.py:24-33 | Siblings are scanned independently and in order: scanning two runs of siblings concatenates their results. |
| Intersector.HiddenGroupContributesNothing | core/intersector.py:25-27 | Inserting an unchecked group anywhere among siblings leaves the scan's result unchanged. |
| Intersector.QueryGeometry | core/intersector.py:57-63 | Defines the query geometry: the commune boundary unchanged when the layer's CRS is EPSG:4326, otherwise the host's reprojection of it into the layer's CRS, which may raise. |
| Intersector.ResultLayer | core/intersector.py:65-73 | The result layer's name gives back the source's name once the result suffix is removed. Its CRS authority id, geometry type and fields are the source's, and it is a vector layer holding exactly the given features. |
| Intersector.EvaluateLayer | core/intersector.py:56-87 | Defines one loop iteration: the reprojection error, no result when nothing matched, or the result layer holding the matching candidates. EvaluateLayerShape states its properties. |
| Intersector.MatchingFeatures | core/intersector.py:75-82 | The kept features all come from the bounding-box stream and intersect the query geometry. Every stream feature that has a geometry intersecting the query is kept. |
| Intersector.EvaluateLayerShape | core/intersector.py:56-87 | One layer raises exactly when reprojection raises. It yields no result exactly when nothing matched. Otherwise the result layer is named source name + " — résultat" and keeps the source's CRS, geometry type and fields. It is a vector layer whose features are exactly the non-empty matching set. |
| Intersector.Harvest | core/intersector.py:84-87 | A run that raises nothing yields at most one layer per input, each a non-empty vector layer. |
| Intersector.HarvestConcat | core/intersector.py:52-87 | Layers are processed independently and in order: the results for two runs of layers are the concatenation of each run's results. |
| Intersector.HarvestOrigin | core/intersector.py:52-87 | Every result layer was produced by some input layer's evaluation. |
| Intersector.FirstFailure | core/intersector.py:52-63 | Returns the index of the first layer whose reprojection raises, with every earlier layer evaluating without error. It returns the layer count when no layer raises. |
| Intersector.IntersectLayer | core/intersector.py:56-87 | The loop body (reprojection, streaming, the feature loop and the result layer) computes exactly the per-layer evaluation. |
| Intersector.IntersectStep | core/intersector.py:53-87 | One loop pass makes the progress call `(i, n, name_i)`. Its evaluation is that of layer i, and on success the results so far extend to layer i. |
| Intersector.IntersectCommune | core/intersector.py:44-92 | The run succeeds iff no reprojection raises. On success it returns the reference results. Otherwise it returns the first failing layer's error. Without a callback it makes no calls. On success the calls are `(i, n, name_i)` for every layer and then `(n, n, "")`. On failure they run up to and including the failing layer's call, with no final call. |
| Intersector.IntersectCommuneShape | core/intersector.py:52-92 | A successful run returns at most one non-empty layer per input and reports exactly n + 1 progress calls, ending with `(n, n, "")`. |
| Intersector.FindGroup | core/intersector.py:99 | A found node is a group with the requested name. |
| Intersector.FindGroupIsFirst | core/intersector.py:99 | The search returns the first group with that name in a reference pre-order listing of every group in the forest, where each group comes before its children and its children before its later siblings. |
| Intersector.FindGroupComplete | core/intersector.py:99-103 | The search finds a group iff a group with that name exists somewhere in the forest, at any depth; so the group is created only when none exists anywhere. |
| Intersector.AddResultsToProject | core/intersector.py:95-107 | Afterwards the results group exists and holds exactly the new layers, in order. When no group of that name existed anywhere in the tree, a checked group is inserted at index 0 and the old top level follows unchanged. When one existed, the top level keeps its length. |
| Intersector.FindAfterReplace | core/intersector.py:99-101 | Emptying and refilling the found group keeps the top level's length, and the search then finds that group with only the new children. |
| Intersector.ReplaceTwice | core/intersector.py:100-107 | A second refill fully overrides the first. |
| Intersector.ReplaceRestores | core/intersector.py:100-107 | A refill changes nothing but the group's children: putting the old children back restores the forest exactly. |
| Intersector.PublishLastWins | core/intersector.py:95-107 | Publishing twice is the same as publishing only the second result set; earlier results never accumulate. |
| Intersector.PublishIdempotent | core/intersector.py:95-107 | Publishing the same results twice leaves one copy of each. |
| Intersector.PublishTouchesOnlyGroup | core/intersector.py:99-107 | When the group exists, publishing modifies nothing outside it. |
| Seqs.Filter | core/intersector.py:76-82 | Selection keeps only elements satisfying the test, drops no element satisfying it, and never lengthens the input. |
| Seqs.FilterConcat | core/intersector.py:77-82 | Selecting from a concatenation concatenates the selections, so stream order is preserved. |
| Seqs.FilterAll | core/intersector.py:77-82 | When every streamed feature matches, all of them are kept, unchanged and in order. |
| Seqs.FilterSingleton | core/intersector.py:78 | A single feature is kept iff it passes the test. |
| Export.FormatValue | core/export.py:22-31 | Every cell becomes text or is passed through. `None` and invalid date, time or date-time values become the empty string. Plain values are returned as they are. |
| Export.FormatValueIdempotent | core/export.py:22-31 | Formatting an already formatted value changes nothing. |
| Export.FormatValueReadsBack | core/export.py:25-30 | Valid dates, times and date-times are rendered with their fixed patterns, which parse back to the same date and the same time to the second. |
| Export.Sanitize | core/export.py:36 | Defines `re.sub(r"[^\w\s\-()]", "_", name)`: same length, with every character outside the class replaced by `_`. `\w` is classified up to U+024F only (see "## Left out"). |
| Export.SafeFilenameKeepsLigature | core/export.py:34-36 | A name with the French ligature œ (U+0153), `cœur`, is already safe and comes back unchanged. |
| Export.SafeFilename | core/export.py:34-36 | Defines `_safe_filename` as the substitution followed by `strip()`. SafeFilenameIsSafe, SafeFilenameFixedPoints and SafeFilenameIdempotent state its properties. |
| Export.SafeFilenameIsSafe | core/export.py:34-36 | A sanitised name contains only accepted characters, so no `/`, `\` or `.`. It has no surrounding whitespace and is no longer than the input. |
| Export.SafeFilenameFixedPoints | core/export.py:34-36 | A name is left unchanged iff it holds only accepted characters and has no surrounding whitespace. |
| Export.SafeFilenameIdempotent | core/export.py:34-36 | Sanitising twice is the same as sanitising once. |
| Export.SafeFilenameCollides | core/export.py:34-36 | Two distinct layer names, `a/b` and `a_b`, map to the same file name, so the second CSV overwrites the first. |
| Export.JoinPath | core/export.py:59 | POSIX `os.path.join` of two parts: the result ends with the name. An absolute name replaces the directory. Otherwise a `/` is inserted between them exactly when the directory is non-empty and does not already end in `/`, and nothing is inserted otherwise. |
| Export.CsvPathInDirectory | core/export.py:58-59 | The CSV path is the output directory, then a `/` exactly when the directory is non-empty and does not end in `/`, then a non-empty file name with no `/`. The file therefore lands directly in the directory. |
| Export.CsvFileNameOfResult | core/export.py:54-58 | For a result layer built by the intersection, the file name is the sanitised source layer name plus `.csv`: the appended suffix is removed again. |
| Export.CsvFor | core/export.py:58-68 | Defines the file written for one layer: its joined path, the field names as header, and one formatted row per feature. CsvForShape states its properties. |
| Export.CsvForShape | core/export.py:54-68 | A layer's file sits at the joined path under its source's sanitised name. Its header is the field names, then one row per feature in order, each holding the formatted attributes. |
| Export.WriteLayerCsv | core/export.py:54-70 | The loop body's path and written contents are exactly those of the reference file for that layer. |
| Export.CsvCallsIndex | core/export.py:53-56 | The progress calls before each layer are `(i, n, name_i)`, with the result suffix removed from the name. |
| Export.ExportStep | core/export.py:53-70 | One loop pass makes the progress call `(i, n, name_i)` only when reporting. The file and path it produces extend the reference files and paths of layers 0 to i-1 to those of layers 0 to i. |
| Export.ExportLoop | core/export.py:53-70 | The loop yields the reference file of every layer in order, the path of each, and, when reporting, the progress calls made before each layer. |
| Export.ExportResultsToCsv | core/export.py:39-72 | One file per layer, in order, each equal to the reference file, and the returned paths are those files' paths. With a callback, the calls are `(i, n, name_i)` before each layer, with no final call; without one, there are no calls. |
| Export.ExportResultsToPdf | core/export.py:131-181 | The export fails, with `PDF export failed: ` plus the error, iff the exporter did not succeed. Otherwise there are 1 + n pages: an overview titled with the commune that shows every result layer over the basemap, then one page per layer titled with its suffix-less name. The calls are `(0, T, commune)`, `(i + 1, T, name_i)` and `(T, T, "Export PDF…")`, where T = 1 + n. |
| Text.UpperIgnoresAsciiCase | core/intersector.py:37 | Strings equal up to ASCII case have the same upper-case form. |
| Text.LowerIgnoresAsciiCase | core/intersector.py:40 | Strings equal up to ASCII case have the same lower-case form. |
| Text.RemoveSuffix | core/export.py:54 | When the name ends with the suffix, the result plus the suffix is the name; otherwise the name is unchanged. |
| Text.RemoveAppendedSuffix | core/export.py:54 | Removing a suffix that was just appended gives back the original name. |
| Text.StripShape | core/export.py:36 | The stripped text occurs in the input right after a run of whitespace, is followed only by whitespace, and neither starts nor ends with whitespace. |
| Text.StripTrimmed | core/export.py:36 | Text with no surrounding whitespace is left unchanged by stripping. |
| Text.StripIdempotent | core/export.py:36 | Stripping twice is the same as stripping once. |
| Text.DecimalRoundTrip | core/export.py:26-28 | The decimal rendering of a natural number reads back as that number, using digits only. |
| Text.ZeroPadValue | core/export.py:26-28 | Left zero-padding keeps the value. |
| Text.DecimalLength | core/export.py:26-28 | A number below 10^k has at most k decimal digits. |
| Temporal.TwoDigits | core/export.py:26-30 | A two-digit field is two digits that read back as the number. |
| Temporal.DaysInMonth | core/export.py:26-28 | February has 29 days in a leap year and 28 otherwise. April, June, September and November have 30 days, and the other months 31. |
| Temporal.ValidDate | core/export.py:27-28 | Defines `QDate.isValid()`: a year other than 0, a month from 1 to 12, and a day within that month's length. |
| Temporal.ValidTime | core/export.py:29-30 | Defines `QTime.isValid()`: hour below 24, minute and second below 60, milliseconds below 1000. |
| Temporal.FormatDate | core/export.py:27-28 | Defines the `yyyy-MM-dd` rendering; FormatDateRoundTrip is its partner. |
| Temporal.FormatTime | core/export.py:29-30 | Defines the `HH:mm:ss` rendering; FormatTimeRoundTrip is its partner. |
| Temporal.FormatDateTime | core/export.py:25-26 | Defines the `yyyy-MM-dd HH:mm:ss` rendering; FormatDateTimeRoundTrip is its partner. |
| Temporal.YearRoundTrip | core/export.py:26-28 | The `yyyy` field of any year other than 0, negative years included, has at least four characters and reads back as that year. |
| Temporal.FormatDateRoundTrip | core/export.py:27-28 | A valid date rendered as `yyyy-MM-dd` parses back to the same date. |
| Temporal.FormatTimeRoundTrip | core/export.py:29-30 | A valid time rendered as `HH:mm:ss` is 8 characters and parses back to the same time with its milliseconds dropped. |
| Temporal.FormatDateTimeRoundTrip | core/export.py:25-26 | A valid date-time rendered as `yyyy-MM-dd HH:mm:ss` parses back to its date, and to its time without milliseconds. |
| Temporal.FormatWidths | core/export.py:25-28 | For years 1 to 9999 the two date patterns have their fixed widths, 10 and 19. |

## Left out

- The dock panel, the dialog, the commune lookup (`commune_api.py`) and `plugin.py` are not part of this model.
- `os.makedirs` and the file writes are left out; the model returns each file's path and contents. CSV quoting and encoding by `csv.writer` are left out too: a file is modelled as header plus rows of cell values.
- The PDF layout is reduced to a list of pages (title, layers shown, basemap shown). The template loading, the layout items, the basemap URL and the actual PDF writing are left out. So is the 5% floating-point growth of the bounding box. The exporter's `(result, error)` answer is a parameter.
- `addMapLayer` registering each result layer in the project's layer registry is left out; only the layer-tree group is modelled.
- Export.FormatValue: the `Null` value stands for Python `None` only. In PyQGIS a NULL attribute usually arrives as `qgis.core.NULL`, not `None`. `_format_value` passes that value through, and `csv.writer` writes it as the text `NULL`. In the model such a value is a pass-through `Scalar("NULL")`, so it is not mapped to the empty string.
- Export.FormatValue: a date-time carries no time spec or time zone in the model. In Qt 5, a local-time or time-zone `QDateTime` that falls in a daylight-saving gap is invalid and is written as the empty string; the model formats it as text.
- Feature ids, the `QgsFeature` field binding and `updateExtents` are left out; a copied feature keeps its geometry and attributes.
- Intersector.ResultLayer: the memory provider is assumed to accept every field and every feature unchanged. The real `addAttributes` can skip fields of unsupported types or rewrite a field's type name. The real `addFeatures` can coerce or reject a feature whose geometry type differs from the layer's. The code still keeps such a layer, because it tests the list `matching`, not the layer.
- The spatial primitives `intersects`, `boundingBox`, `transform` and `getFeatures` are opaque functions of a `Host` value. Their geometry is not modelled.
- Intersector.IntersectCommune: only a reprojection failure is modelled as raising. An exception from `getFeatures` or `intersects` is not modelled.
- Qgis.Crs: CRS identity is reduced to the authority id, both for the `layer_crs != commune_crs` test and for the result layer's `?crs=` URI. The geometry type is assumed to survive the round trip through its display string.
- The progress callback is modelled by a `reporting` flag plus the list of calls made. A callback is present or absent; its return value and side effects are not modelled.
- Export.CsvPathInDirectory: paths are joined as on POSIX (`posixpath.join`, separator `/`). On Windows `os.path.join` is `ntpath.join`, which inserts `\` and treats drive letters specially. For example, it gives `C:/out\a.csv` where the model gives `C:/out/a.csv`.
- Export.Sanitize: regex `\w` is classified exactly only up to U+024F, which covers Latin-1 and Latin Extended-A and -B and so French letters such as œ. Letters and digits beyond U+024F are replaced by `_`, whereas Python keeps them. For example, Greek `π` gives `_` in the model and `π` in Python. SafeFilenameIsSafe and the other sanitiser lemmas hold of this narrower class.
- Text.Upper: `str.upper` is modelled only for characters whose upper case is an ASCII letter: ASCII, long s (U+017F) and dotless i (U+0131). Every other character is left unchanged. This decides the `== "WFS"` test exactly, because no multi-letter expansion such as a ligature yields `WF` or `FS`. It is not the full Unicode mapping.
- Text.Lower: `str.lower` is modelled only for characters whose lower case is a single ASCII letter, which are the ASCII capitals and the Kelvin sign (U+212A). Capital I with dot (U+0130) lowers to two characters in Python and is left unchanged here. This does not change the `in` tests of `_is_wfs`: those look for ASCII text, and in them an `i` is never followed by the combining dot U+0307.
- Temporal.FormatDate, Temporal.FormatTime, Temporal.FormatDateTime: Qt 5 formats through `QLocale::system()`; the system locale is assumed to write ASCII digits 0-9.
- Temporal.ValidDate: the QDate range limits (the Julian-day bounds) are not modelled.

=== FILE: base.dfy ===
/** Failure-carrying wrappers shared by every module of the model. */
module Base {

  /** A value that may be absent (Python's `None`). */
  datatype Option<+T> = None | Some(value: T)

  /** The outcome of a step that may raise: `Err` carries the exception's message. */
  datatype Result<+T> = Ok(value: T) | Err(message: string)
}

=== FILE: export.dfy ===
/**
 * The export side: cell formatting, file-name sanitising, the CSV export
 * (with file writes replaced by the returned file contents) and the page
 * plan and progress sequence of the PDF report.
 */
module Export {
  import opened Base
  import opened Seqs
  import opened Text
  import opened Temporal
  import opened Qgis
  import Intersector

  // =========================================================== cell values

  /**
   * `_format_value`: `None` and invalid Qt temporal values become the empty
   * string, valid ones their fixed-pattern text; anything else is returned as is.
   */
  function FormatValue(v: Value): (r: Value)
    ensures r.Text? || r.Scalar?
    ensures v.Null? ==> r == Text("")
    ensures v.DateTimeValue? && !(ValidDate(v.date) && ValidTime(v.time)) ==> r == Text("")
    ensures v.DateValue? && !ValidDate(v.date) ==> r == Text("")
    ensures v.TimeValue? && !ValidTime(v.time) ==> r == Text("")
    ensures v.Text? || v.Scalar? ==> r == v
  {
    match v
    case Null => Text("")
    case DateTimeValue(d, t) =>
      if ValidDate(d) && ValidTime(t) then Text(FormatDateTime(d, t)) else Text("")
    case DateValue(d) => if ValidDate(d) then Text(FormatDate(d)) else Text("")
    case TimeValue(t) => if ValidTime(t) then Text(FormatTime(t)) else Text("")
    case Text(_) => v
    case Scalar(_) => v
  }

  /** Formatting a formatted value changes nothing more. */
  lemma FormatValueIdempotent(v: Value)
    ensures FormatValue(FormatValue(v)) == FormatValue(v)
  {
  }

  /**
   * Valid temporal values are rendered with their fixed patterns, which read
   * back as the same date, and the same time down to the second.
   */
  lemma FormatValueReadsBack(v: Value)
    ensures v.DateValue? && ValidDate(v.date) ==>
      FormatValue(v).Text? && ParseDate(FormatValue(v).text) == Some(v.date)
    ensures v.TimeValue? && ValidTime(v.time) ==>
      FormatValue(v).Text? && ParseTime(FormatValue(v).text) == Some(Time(v.time.hour, v.time.minute, v.time.second, 0))
    ensures v.DateTimeValue? && ValidDate(v.date) && ValidTime(v.time) ==>
      FormatValue(v).Text? &&
      ParseDateTime(FormatValue(v).text) == Some((v.date, Time(v.time.hour, v.time.minute, v.time.second, 0)))
  {
    match v
    case DateValue(d) =>
      if ValidDate(d) { FormatDateRoundTrip(d); }
    case TimeValue(t) =>
      if ValidTime(t) { FormatTimeRoundTrip(t); }
    case DateTimeValue(d, t) =>
      if ValidDate(d) && ValidTime(t) { FormatDateTimeRoundTrip(d, t); }
    case _ =>
  }

  // ============================================================ file names

  /** The characters regex class `[\w\s\-()]` accepts. */
  predicate IsFilenameChar(c: char) {
    IsWordChar(c) || IsSpace(c) || c == '-' || c == '(' || c == ')'
  }

  /** `re.sub(r"[^\w\s\-()]", "_", s)`: every other character becomes `_`. */
  function Sanitize(s: string): (r: string)
    ensures |r| == |s|
    ensures forall i :: 0 <= i < |s| ==> r[i] == if IsFilenameChar(s[i]) then s[i] else '_'
  {
    seq(|s|, i requires 0 <= i < |s| => if IsFilenameChar(s[i]) then s[i] else '_')
  }

  /** No accepted character is a path separator or a dot. */
  lemma FilenameCharIsNoSeparator(c: char)
    ensures IsFilenameChar(c) ==> c != '/' && c != '\\' && c != '.'
  {
  }

  /** A name the sanitiser would leave unchanged: only accepted characters, no surrounding whitespace. */
  predicate IsSafeName(s: string) {
    && (forall i :: 0 <= i < |s| ==> IsFilenameChar(s[i]))
    && (s == [] || (!IsSpace(s[0]) && !IsSpace(s[|s| - 1])))
  }

  /** `_safe_filename`: substitute, then strip surrounding whitespace. */
  function SafeFilename(s: string): string {
    Strip(Sanitize(s))
  }

  /**
   * A sanitised name holds only accepted characters (so no `/`, `\` or `.`),
   * has no surrounding whitespace and is no longer than the input.
   */
  lemma SafeFilenameIsSafe(s: string)
    ensures IsSafeName(SafeFilename(s))
    ensures |SafeFilename(s)| <= |s|
    ensures forall i :: 0 <= i < |SafeFilename(s)| ==>
      SafeFilename(s)[i] != '/' && SafeFilename(s)[i] != '\\' && SafeFilename(s)[i] != '.'
  {
    var t := Sanitize(s);
    var r := Strip(t);
    StripShape(t);
    var a := LeadingSpaces(t);
    forall i | 0 <= i < |r|
      ensures IsFilenameChar(r[i]) && r[i] != '/' && r[i] != '\\' && r[i] != '.'
    {
      assert r[i] == t[a..a + |r|][i] == t[a + i];
      FilenameCharIsNoSeparator(r[i]);
    }
  }

  /** Safe names are exactly the fixed points of the sanitiser. */
  lemma SafeFilenameFixedPoints(s: string)
    ensures SafeFilename(s) == s <==> IsSafeName(s)
  {
    if IsSafeName(s) {
      assert Sanitize(s) == s;
      StripTrimmed(s);
    }
    if SafeFilename(s) == s {
      SafeFilenameIsSafe(s);
    }
  }

  /** `_safe_filename` is idempotent. */
  lemma SafeFilenameIdempotent(s: string)
    ensures SafeFilename(SafeFilename(s)) == SafeFilename(s)
  {
    SafeFilenameIsSafe(s);
    SafeFilenameFixedPoints(SafeFilename(s));
  }

  /** Distinct layer names can share a file name: `"a/b"` and `"a_b"` both give `"a_b"`. */
  lemma SafeFilenameCollides()
    ensures SafeFilename("a/b") == SafeFilename("a_b") == "a_b"
  {
    assert Sanitize("a/b") == "a_b";
    assert Sanitize("a_b") == "a_b";
    StripTrimmed("a_b");
  }

  /** Letters of Latin Extended-A such as the French œ are kept, as Python's `\w` keeps them. */
  lemma SafeFilenameKeepsLigature()
    ensures SafeFilename("c\U{153}ur") == "c\U{153}ur"
  {
    assert Sanitize("c\U{153}ur") == "c\U{153}ur";
    StripTrimmed("c\U{153}ur");
  }

  // ============================================================== CSV export

  /** `os.path.join(directory, name)` on POSIX for a single component. */
  function JoinPath(directory: string, name: string): (r: string)
    ensures HasSuffix(r, name)
    ensures |name| > 0 && name[0] == '/' ==> r == name
    ensures (name == [] || name[0] != '/') ==> |directory| <= |r| && r[..|directory|] == directory
    ensures (name == [] || name[0] != '/') ==> |r| - |directory| - |name| <= 1
    ensures (name == [] || name[0] != '/') && directory != [] && directory[|directory| - 1] != '/' ==>
      r == directory + "/" + name
    ensures (name == [] || name[0] != '/') && (directory == [] || directory[|directory| - 1] == '/') ==>
      r == directory + name
  {
    if |name| > 0 && name[0] == '/' then name
    else if directory == [] || directory[|directory| - 1] == '/' then directory + name
    else directory + "/" + name
  }

  /** The CSV file name of a result layer: its source layer's name, sanitised, with `.csv`. */
  function CsvFileName(layer: Layer): string {
    SafeFilename(RemoveSuffix(layer.name, Intersector.ResultSuffix)) + ".csv"
  }

  /**
   * The CSV file lands directly in the output directory: the path is the
   * directory, a `/` exactly when the directory is non-empty and does not
   * already end in one, and a file name with no `/` in it.
   */
  lemma CsvPathInDirectory(directory: string, layer: Layer)
    ensures var name := CsvFileName(layer);
      && name != []
      && (forall i :: 0 <= i < |name| ==> name[i] != '/')
      && (directory != [] && directory[|directory| - 1] != '/' ==>
            JoinPath(directory, name) == directory + "/" + name)
      && (directory == [] || directory[|directory| - 1] == '/' ==>
            JoinPath(directory, name) == directory + name)
  {
    CsvFileNameHasNoSeparator(layer);
  }

  /** A CSV file name is non-empty and holds no `/`. */
  lemma CsvFileNameHasNoSeparator(layer: Layer)
    ensures CsvFileName(layer) != []
    ensures forall i :: 0 <= i < |CsvFileName(layer)| ==> CsvFileName(layer)[i] != '/'
  {
    var stem := RemoveSuffix(layer.name, Intersector.ResultSuffix);
    SafeFilenameIsSafe(stem);
    ConcatHasNoSlash(SafeFilename(stem), ".csv");
  }

  /** Two strings without `/` make one. */
  lemma ConcatHasNoSlash(a: string, b: string)
    requires forall i :: 0 <= i < |a| ==> a[i] != '/'
    requires forall i :: 0 <= i < |b| ==> b[i] != '/'
    ensures forall i :: 0 <= i < |a + b| ==> (a + b)[i] != '/'
  {
    forall i | 0 <= i < |a + b|
      ensures (a + b)[i] != '/'
    {
      if i < |a| { assert (a + b)[i] == a[i]; } else { assert (a + b)[i] == b[i - |a|]; }
    }
  }

  /** A result layer's file is named after its source layer. */
  lemma CsvFileNameOfResult(source: Layer, features: seq<Feature>)
    ensures CsvFileName(Intersector.ResultLayer(source, features)) == SafeFilename(source.name) + ".csv"
  {
    RemoveAppendedSuffix(source.name, Intersector.ResultSuffix);
  }

  /** The content of one written CSV file, before CSV quoting. */
  datatype CsvFile = CsvFile(path: string, header: seq<string>, rows: seq<seq<Value>>)

  function FieldNames(fields: seq<Field>): (r: seq<string>)
    ensures |r| == |fields|
    ensures forall i :: 0 <= i < |r| ==> r[i] == fields[i].name
  {
    seq(|fields|, i requires 0 <= i < |fields| => fields[i].name)
  }

  /** A CSV row: `_format_value` of every attribute, positionally. */
  function Row(f: Feature): (r: seq<Value>)
    ensures |r| == |f.attributes|
    ensures forall i :: 0 <= i < |r| ==> r[i] == FormatValue(f.attributes[i])
  {
    seq(|f.attributes|, i requires 0 <= i < |f.attributes| => FormatValue(f.attributes[i]))
  }

  /** The file written for one layer. */
  function CsvFor(directory: string, layer: Layer): CsvFile {
    CsvFile(JoinPath(directory, CsvFileName(layer)), FieldNames(layer.fields), Map(Row, layer.features))
  }

  /**
   * A layer's CSV file sits in the output directory under its source layer's
   * sanitised name; its header is the field names, then one row per feature
   * in order, each row as long as the feature's attribute list and holding
   * the formatted attributes positionally.
   */
  lemma CsvForShape(directory: string, layer: Layer)
    ensures CsvFor(directory, layer).path == JoinPath(directory, CsvFileName(layer))
    ensures |CsvFor(directory, layer).header| == |layer.fields|
    ensures forall i :: 0 <= i < |layer.fields| ==> CsvFor(directory, layer).header[i] == layer.fields[i].name
    ensures |CsvFor(directory, layer).rows| == |layer.features|
    ensures forall k :: 0 <= k < |layer.features| ==>
      |CsvFor(directory, layer).rows[k]| == |layer.features[k].attributes|
    ensures forall k, i :: 0 <= k < |layer.features| && 0 <= i < |layer.features[k].attributes| ==>
      CsvFor(directory, layer).rows[k][i] == FormatValue(layer.features[k].attributes[i])
  {
  }

  /** The body of the export loop for one layer: the file's path and contents. */
  method WriteLayerCsv(directory: string, layer: Layer) returns (path: string, file: CsvFile)
    ensures file == CsvFor(directory, layer)
    ensures path == file.path
  {
    var layerName := RemoveSuffix(layer.name, Intersector.ResultSuffix);
    path := JoinPath(directory, SafeFilename(layerName) + ".csv");
    var header := FieldNames(layer.fields);
    var rows: seq<seq<Value>> := [];
    var k := 0;
    while k < |layer.features|
      invariant 0 <= k <= |layer.features|
      invariant rows == Map(Row, layer.features[..k])
    {
      MapSnoc(Row, layer.features, k);
      rows := rows + [Row(layer.features[k])];
      k := k + 1;
    }
    assert layer.features[..k] == layer.features;
    file := CsvFile(path, header, rows);
  }

  /** The progress calls `(i, n, name_i)` made before each of the first `count` layers. */
  function CsvCalls(layers: seq<Layer>, count: nat): seq<Progress>
    requires count <= |layers|
  {
    if count == 0 then [] else
    CsvCalls(layers, count - 1) + [Progress(count - 1, |layers|, RemoveSuffix(layers[count - 1].name, Intersector.ResultSuffix))]
  }

  lemma {:induction false} CsvCallsIndex(layers: seq<Layer>, count: nat)
    requires count <= |layers|
    ensures |CsvCalls(layers, count)| == count
    ensures forall i :: 0 <= i < count ==>
      CsvCalls(layers, count)[i] == Progress(i, |layers|, RemoveSuffix(layers[i].name, Intersector.ResultSuffix))
  {
    if count > 0 {
      CsvCallsIndex(layers, count - 1);
    }
  }

  /** The files and paths of the export loop are, position by position, those of the layers. */
  lemma CsvFilesIndex(directory: string, layers: seq<Layer>)
    ensures |Map((layer: Layer) => CsvFor(directory, layer), layers)| == |layers|
    ensures |Map((layer: Layer) => CsvFor(directory, layer).path, layers)| == |layers|
    ensures forall i :: 0 <= i < |layers| ==>
      && Map((layer: Layer) => CsvFor(directory, layer), layers)[i] == CsvFor(directory, layers[i])
      && Map((layer: Layer) => CsvFor(directory, layer).path, layers)[i] == CsvFor(directory, layers[i]).path
  {
  }

  /**
   * One pass of the export loop: the progress call for layer `i` when
   * reporting, then that layer's file and path, which extend the files and
   * paths of the layers before it.
   */
  method ExportStep(layers: seq<Layer>, directory: string, reporting: bool, i: nat)
    returns (call: seq<Progress>, path: string, file: CsvFile)
    requires i < |layers|
    ensures call == if reporting then [Progress(i, |layers|, RemoveSuffix(layers[i].name, Intersector.ResultSuffix))] else []
    ensures Map((layer: Layer) => CsvFor(directory, layer), layers[..i]) + [file]
         == Map((layer: Layer) => CsvFor(directory, layer), layers[..i + 1])
    ensures Map((layer: Layer) => CsvFor(directory, layer).path, layers[..i]) + [path]
         == Map((layer: Layer) => CsvFor(directory, layer).path, layers[..i + 1])
  {
    call := [];
    if reporting {
      call := [Progress(i, |layers|, RemoveSuffix(layers[i].name, Intersector.ResultSuffix))];
    }
    path, file := WriteLayerCsv(directory, layers[i]);
    MapSnoc((layer: Layer) => CsvFor(directory, layer), layers, i);
    MapSnoc((layer: Layer) => CsvFor(directory, layer).path, layers, i);
  }

  /**
   * The loop of `export_results_to_csv`: the files and paths of the layers
   * in order, and with `reporting` the progress calls made before each.
   */
  method ExportLoop(layers: seq<Layer>, directory: string, reporting: bool)
    returns (written: seq<string>, files: seq<CsvFile>, calls: seq<Progress>)
    ensures files == Map((layer: Layer) => CsvFor(directory, layer), layers)
    ensures written == Map((layer: Layer) => CsvFor(directory, layer).path, layers)
    ensures calls == if reporting then CsvCalls(layers, |layers|) else []
  {
    var csv := (layer: Layer) => CsvFor(directory, layer);
    var pathOf := (layer: Layer) => CsvFor(directory, layer).path;
    written, files, calls := [], [], [];
    var i := 0;
    while i < |layers|
      invariant 0 <= i <= |layers|
      invariant files == Map(csv, layers[..i])
      invariant written == Map(pathOf, layers[..i])
      invariant calls == if reporting then CsvCalls(layers, i) else []
    {
      var call, path, file := ExportStep(layers, directory, reporting, i);
      calls := calls + call;
      files := files + [file];
      written := written + [path];
      i := i + 1;
    }
    assert layers[..i] == layers;
  }

  /**
   * `export_results_to_csv`. Returns the written paths and, in place of the
   * files on disk, their contents; with `reporting`, the progress calls
   * `(i, n, name_i)` made before each layer, with no final call.
   */
  method ExportResultsToCsv(layers: seq<Layer>, directory: string, reporting: bool)
    returns (written: seq<string>, files: seq<CsvFile>, calls: seq<Progress>)
    ensures |written| == |layers| && |files| == |layers|
    ensures forall i :: 0 <= i < |layers| ==> files[i] == CsvFor(directory, layers[i])
    ensures forall i :: 0 <= i < |layers| ==> written[i] == files[i].path
    ensures !reporting ==> calls == []
    ensures reporting ==> |calls| == |layers|
    ensures reporting ==> forall i :: 0 <= i < |layers| ==>
      calls[i] == Progress(i, |layers|, RemoveSuffix(layers[i].name, Intersector.ResultSuffix))
  {
    written, files, calls := ExportLoop(layers, directory, reporting);
    CsvFilesIndex(directory, layers);
    CsvCallsIndex(layers, |layers|);
  }

  // ============================================================== PDF report

  /** `QgsLayoutExporter.ExportResult`. */
  datatype ExportResult =
    | Success | Canceled | MemoryError | FileError | PrintError | SvgLayerError | IteratorError

  /** One report section: its title, the result layers drawn on its map, and the basemap underneath. */
  datatype Page = Page(title: string, layers: seq<Layer>, basemap: bool)

  /**
   * `export_results_to_pdf` with the exporter's answer `(result, error)` as a
   * parameter. Returns the report's pages, or the raised error when the
   * exporter did not succeed; with `reporting`, the progress calls made.
   */
  method ExportResultsToPdf(layers: seq<Layer>, communeName: string, reporting: bool,
                            exporterResult: ExportResult, exporterError: string)
    returns (outcome: Result<seq<Page>>, calls: seq<Progress>)
    ensures outcome.Ok? <==> exporterResult == Success
    ensures outcome.Err? ==> outcome.message == "PDF export failed: " + exporterError
    ensures outcome.Ok? ==> |outcome.value| == 1 + |layers|
    ensures outcome.Ok? ==> outcome.value[0] == Page(communeName, layers, true)
    ensures outcome.Ok? ==> forall i :: 0 <= i < |layers| ==>
      outcome.value[i + 1] == Page(RemoveSuffix(layers[i].name, Intersector.ResultSuffix), [layers[i]], true)
    ensures !reporting ==> calls == []
    ensures reporting ==> |calls| == |layers| + 2
    ensures reporting ==> calls[0] == Progress(0, |layers| + 1, communeName)
    ensures reporting ==> forall i :: 0 <= i < |layers| ==>
      calls[i + 1] == Progress(i + 1, |layers| + 1, RemoveSuffix(layers[i].name, Intersector.ResultSuffix))
    ensures reporting ==> calls[|layers| + 1] == Progress(|layers| + 1, |layers| + 1, "Export PDF\U{2026}")
  {
    var totalPages := 1 + |layers|;
    calls := [];
    if reporting {
      calls := calls + [Progress(0, totalPages, communeName)];
    }
    var pages := [Page(communeName, layers, true)];

    var i := 0;
    while i < |layers|
      invariant 0 <= i <= |layers|
      invariant |pages| == 1 + i && pages[0] == Page(communeName, layers, true)
      invariant forall j :: 0 <= j < i ==>
        pages[j + 1] == Page(RemoveSuffix(layers[j].name, Intersector.ResultSuffix), [layers[j]], true)
      invariant |calls| == if reporting then 1 + i else 0
      invariant reporting ==> calls[0] == Progress(0, totalPages, communeName)
      invariant reporting ==> forall j :: 0 <= j < i ==>
        calls[j + 1] == Progress(j + 1, totalPages, RemoveSuffix(layers[j].name, Intersector.ResultSuffix))
    {
      var layerName := RemoveSuffix(layers[i].name, Intersector.ResultSuffix);
      if reporting {
        calls := calls + [Progress(i + 1, totalPages, layerName)];
      }
      pages := pages + [Page(layerName, [layers[i]], true)];
      i := i + 1;
    }

    if reporting {
      calls := calls + [Progress(totalPages, totalPages, "Export PDF\U{2026}")];
    }
    if exporterResult != Success {
      outcome := Err("PDF export failed: " + exporterError);
    } else {
      outcome := Ok(pages);
    }
  }
}

=== FILE: intersector.dfy ===
/**
 * The spatial-intersection engine: discovery of the visible WFS layers in
 * the layer tree, per-layer reprojection of the commune boundary,
 * bounding-box prefilter plus exact `intersects` test, construction of
 * result layers that mirror their source's schema, and publication of the
 * results under one group that is emptied and refilled on every run.
 */
module Intersector {
  import opened Base
  import opened Seqs
  import opened Text
  import opened Qgis

  /** Appended to a source layer's name to name its result layer. */
  const ResultSuffix: string := " \U{2014} r\U{e9}sultat"

  /** The layer-tree group that holds the latest run's results. */
  const ResultsGroupName: string := "R\U{e9}sultats secateur"

  // =========================================================== classification

  /**
   * A layer is served over WFS when its provider is "WFS" in any case, or when
   * its source URI mentions the WFS service in any case (layers loaded through OGR).
   */
  predicate IsWfs(layer: Layer) {
    || Upper(layer.providerType) == "WFS"
    || Contains(Lower(layer.source), "service=wfs")
    || Contains(Lower(layer.source), "/wfs?")
    || Contains(Lower(layer.source), "/wfs/")
  }

  lemma UpperCharIs(c: char)
    ensures UpperChar(c) == 'W' <==> c == 'w' || c == 'W'
    ensures UpperChar(c) == 'F' <==> c == 'f' || c == 'F'
    ensures UpperChar(c) == 'S' <==> c == 's' || c == 'S' || c == '\U{17F}'
  {
  }

  /**
   * The provider test spelled out letter by letter: three letters w, f, s in
   * any case, where Python's `upper` also turns long s (U+017F) into S.
   */
  lemma ProviderIsWfs(p: string)
    ensures Upper(p) == "WFS" <==>
      && |p| == 3
      && (p[0] == 'w' || p[0] == 'W')
      && (p[1] == 'f' || p[1] == 'F')
      && (p[2] == 's' || p[2] == 'S' || p[2] == '\U{17F}')
  {
    if |p| == 3 {
      UpperCharIs(p[0]);
      UpperCharIs(p[1]);
      UpperCharIs(p[2]);
      if Upper(p) == "WFS" {
        assert Upper(p)[0] == 'W' && Upper(p)[1] == 'F' && Upper(p)[2] == 'S';
      }
    }
  }

  /** Classification does not depend on the ASCII letter case of provider or source. */
  lemma IsWfsIgnoresCase(a: Layer, b: Layer)
    requires SameUpToAsciiCase(a.providerType, b.providerType)
    requires SameUpToAsciiCase(a.source, b.source)
    ensures IsWfs(a) <==> IsWfs(b)
  {
    UpperIgnoresAsciiCase(a.providerType, b.providerType);
    LowerIgnoresAsciiCase(a.source, b.source);
  }

  /** A GetCapabilities-style URI with `SERVICE=WFS` is recognised whatever its provider. */
  lemma ServiceParameterIsWfs(layer: Layer, before: string, after: string)
    requires layer.source == before + "SERVICE=WFS" + after
    ensures IsWfs(layer)
  {
    var src := Lower(layer.source);
    var i := |before|;
    assert src[i..i + 11] == "service=wfs";
    assert OccursAt(src, "service=wfs", i);
  }

  // ================================================================= scanning

  /**
   * `_collect_wfs_layers` over a list of sibling nodes whose parent is
   * visible iff `parentVisible`. A node is visible when its own box is
   * checked and its parent is visible; only visible groups are descended into.
   */
  function Collect(nodes: seq<Node>, parentVisible: bool): (r: seq<Layer>)
    ensures forall i :: 0 <= i < |r| ==> r[i].isVector && IsWfs(r[i])
    ensures !parentVisible ==> r == []
    decreases nodes
  {
    if nodes == [] then [] else CollectNode(nodes[0], parentVisible) + Collect(nodes[1..], parentVisible)
  }

  function CollectNode(n: Node, parentVisible: bool): (r: seq<Layer>)
    ensures forall i :: 0 <= i < |r| ==> r[i].isVector && IsWfs(r[i])
    ensures !parentVisible ==> r == []
    decreases n
  {
    match n
    case Group(_, checked, children) =>
      if checked && parentVisible then Collect(children, true) else []
    case LayerNode(checked, layer) =>
      if checked && parentVisible && layer.Some? && layer.value.isVector && IsWfs(layer.value)
      then [layer.value] else []
    case Custom(_) => []
  }

  /**
   * `find_wfs_layers`: the visible WFS vector layers of the tree, depth first.
   * An unchecked root hides the whole tree.
   */
  function FindWfsLayers(tree: LayerTree): (r: seq<Layer>)
    ensures forall i :: 0 <= i < |r| ==> r[i].isVector && IsWfs(r[i])
    ensures !tree.checked ==> r == []
    ensures tree.children == [] ==> r == []
  {
    Collect(tree.children, tree.checked)
  }

  /** A layer node as a full traversal sees it, with its effective visibility. */
  datatype Leaf = Leaf(visible: bool, layer: Option<Layer>)

  /**
   * Reference traversal: every layer node of the forest in depth-first order,
   * descending into every group, each tagged visible iff it and all its
   * ancestors are checked.
   */
  function Leaves(nodes: seq<Node>, parentVisible: bool): seq<Leaf>
    decreases nodes
  {
    if nodes == [] then [] else NodeLeaves(nodes[0], parentVisible) + Leaves(nodes[1..], parentVisible)
  }

  function NodeLeaves(n: Node, parentVisible: bool): seq<Leaf>
    decreases n
  {
    match n
    case Group(_, checked, children) => Leaves(children, checked && parentVisible)
    case LayerNode(checked, layer) => [Leaf(checked && parentVisible, layer)]
    case Custom(_) => []
  }

  predicate Eligible(leaf: Leaf) {
    leaf.visible && leaf.layer.Some? && leaf.layer.value.isVector && IsWfs(leaf.layer.value)
  }

  /** The layers of the eligible leaves, in order. */
  function Selected(leaves: seq<Leaf>): seq<Layer> {
    if leaves == [] then []
    else (if Eligible(leaves[0]) then [leaves[0].layer.value] else []) + Selected(leaves[1..])
  }

  lemma {:induction false} SelectedConcat(a: seq<Leaf>, b: seq<Leaf>)
    ensures Selected(a + b) == Selected(a) + Selected(b)
  {
    if a == [] {
      assert a + b == b;
    } else {
      assert (a + b)[0] == a[0];
      assert (a + b)[1..] == a[1..] + b;
      SelectedConcat(a[1..], b);
    }
  }

  lemma {:induction false} SelectedMembership(leaves: seq<Leaf>, l: Layer)
    ensures l in Selected(leaves) <==>
      exists i :: 0 <= i < |leaves| && Eligible(leaves[i]) && leaves[i].layer == Some(l)
  {
    if leaves != [] {
      SelectedMembership(leaves[1..], l);
      if l in Selected(leaves[1..]) {
        var i :| 0 <= i < |leaves[1..]| && Eligible(leaves[1..][i]) && leaves[1..][i].layer == Some(l);
        assert leaves[i + 1] == leaves[1..][i];
      }
      if exists i :: 0 <= i < |leaves| && Eligible(leaves[i]) && leaves[i].layer == Some(l) {
        var i :| 0 <= i < |leaves| && Eligible(leaves[i]) && leaves[i].layer == Some(l);
        if i > 0 {
          assert leaves[1..][i - 1] == leaves[i];
        }
      }
    }
  }

  /** Under an invisible parent every leaf, however deep, is invisible. */
  lemma {:induction false} HiddenLeaves(nodes: seq<Node>)
    ensures forall i :: 0 <= i < |Leaves(nodes, false)| ==> !Leaves(nodes, false)[i].visible
    decreases nodes
  {
    if nodes != [] {
      HiddenNodeLeaves(nodes[0]);
      HiddenLeaves(nodes[1..]);
    }
  }

  lemma {:induction false} HiddenNodeLeaves(n: Node)
    ensures forall i :: 0 <= i < |NodeLeaves(n, false)| ==> !NodeLeaves(n, false)[i].visible
    decreases n
  {
    match n
    case Group(_, _, children) => HiddenLeaves(children);
    case LayerNode(_, _) =>
    case Custom(_) =>
  }

  lemma {:induction false} SelectedNone(leaves: seq<Leaf>)
    requires forall i :: 0 <= i < |leaves| ==> !leaves[i].visible
    ensures Selected(leaves) == []
  {
    if leaves != [] {
      SelectedNone(leaves[1..]);
    }
  }

  /**
   * The short-circuiting scan equals the reference: traverse everything,
   * then keep the visible WFS vector leaves in traversal order.
   */
  lemma {:induction false} CollectIsSelectedLeaves(nodes: seq<Node>, parentVisible: bool)
    ensures Collect(nodes, parentVisible) == Selected(Leaves(nodes, parentVisible))
    decreases nodes
  {
    if nodes != [] {
      CollectNodeIsSelectedLeaves(nodes[0], parentVisible);
      CollectIsSelectedLeaves(nodes[1..], parentVisible);
      SelectedConcat(NodeLeaves(nodes[0], parentVisible), Leaves(nodes[1..], parentVisible));
    }
  }

  lemma {:induction false} CollectNodeIsSelectedLeaves(n: Node, parentVisible: bool)
    ensures CollectNode(n, parentVisible) == Selected(NodeLeaves(n, parentVisible))
    decreases n
  {
    match n
    case Group(_, checked, children) =>
      if checked && parentVisible {
        CollectIsSelectedLeaves(children, true);
      } else {
        HiddenLeaves(children);
        SelectedNone(Leaves(children, false));
      }
    case LayerNode(checked, layer) =>
      assert NodeLeaves(n, parentVisible)[1..] == [];
    case Custom(_) =>
  }

  /**
   * A layer is found by the scan iff some layer node holding it is
   * effectively visible, and the layer is a WFS vector layer.
   */
  lemma FindWfsLayersMembership(tree: LayerTree, l: Layer)
    ensures l in FindWfsLayers(tree) <==>
      exists i :: 0 <= i < |Leaves(tree.children, tree.checked)|
        && Eligible(Leaves(tree.children, tree.checked)[i])
        && Leaves(tree.children, tree.checked)[i].layer == Some(l)
  {
    CollectIsSelectedLeaves(tree.children, tree.checked);
    SelectedMembership(Leaves(tree.children, tree.checked), l);
  }

  lemma {:induction false} CollectConcat(a: seq<Node>, b: seq<Node>, parentVisible: bool)
    ensures Collect(a + b, parentVisible) == Collect(a, parentVisible) + Collect(b, parentVisible)
  {
    if a == [] {
      assert a + b == b;
    } else {
      assert (a + b)[0] == a[0];
      assert (a + b)[1..] == a[1..] + b;
      CollectConcat(a[1..], b, parentVisible);
    }
  }

  /**
   * An unchecked group contributes nothing, even when leaves below it are
   * checked: the scan of its siblings is all that remains.
   */
  lemma HiddenGroupContributesNothing(before: seq<Node>, name: string, children: seq<Node>, after: seq<Node>, parentVisible: bool)
    ensures Collect(before + [Group(name, false, children)] + after, parentVisible)
         == Collect(before, parentVisible) + Collect(after, parentVisible)
  {
    var g := [Group(name, false, children)];
    assert g[0] == Group(name, false, children) && g[1..] == [];
    assert Collect(g, parentVisible) == CollectNode(g[0], parentVisible) + Collect([], parentVisible);
    assert Collect(g, parentVisible) == [];
    CollectConcat(before + g, after, parentVisible);
    CollectConcat(before, g, parentVisible);
    assert Collect(before + g, parentVisible) == Collect(before, parentVisible);
  }

  // ============================================================= intersection

  /**
   * The geometry to test a layer against: the commune boundary itself when
   * the layer is in EPSG:4326, otherwise a reprojected copy (which may raise).
   */
  function QueryGeometry(host: Host, commune: Geometry, layer: Layer): Result<Geometry> {
    if layer.crs != Wgs84 then host.transform(commune, Wgs84, layer.crs) else Ok(commune)
  }

  /** A streamed feature is kept iff it has a geometry that the query intersects. */
  predicate Matches(host: Host, query: Geometry, f: Feature) {
    f.geometry.Some? && host.intersects(query, f.geometry.value)
  }

  function Keep(host: Host, query: Geometry): Feature -> bool {
    f => Matches(host, query, f)
  }

  /** The features of the bounding-box stream that match, in stream order. */
  function MatchingFeatures(host: Host, query: Geometry, stream: seq<Feature>): (r: seq<Feature>)
    ensures |r| <= |stream|
    ensures forall i :: 0 <= i < |r| ==> r[i] in stream && Matches(host, query, r[i])
    ensures forall i :: 0 <= i < |stream| && Matches(host, query, stream[i]) ==> stream[i] in r
  {
    Filter(Keep(host, query), stream)
  }

  /** The features the layer streams for the query's bounding box. */
  function Candidates(host: Host, query: Geometry, layer: Layer): seq<Feature> {
    host.getFeatures(layer, host.boundingBox(query))
  }

  /**
   * The memory layer built for `source`: named after it with the result
   * suffix, same geometry type, CRS and fields, holding `features`.
   */
  function ResultLayer(source: Layer, features: seq<Feature>): (r: Layer)
    ensures RemoveSuffix(r.name, ResultSuffix) == source.name
    ensures r.crs.authid == source.crs.authid && r.wkbType == source.wkbType && r.fields == source.fields
    ensures r.isVector && r.features == features
  {
    RemoveAppendedSuffix(source.name, ResultSuffix);
    Layer(
      name := source.name + ResultSuffix,
      providerType := "memory",
      source := source.wkbType.displayString + "?crs=" + source.crs.authid,
      isVector := true,
      crs := Crs(source.crs.authid),
      wkbType := source.wkbType,
      fields := source.fields,
      features := features)
  }

  /**
   * One iteration of `intersect_commune`: `Err` when reprojection raises,
   * `Ok(None)` when nothing matched, otherwise the result layer.
   */
  function EvaluateLayer(host: Host, commune: Geometry, layer: Layer): Result<Option<Layer>> {
    match QueryGeometry(host, commune, layer)
    case Err(e) => Err(e)
    case Ok(query) =>
      var matching := MatchingFeatures(host, query, Candidates(host, query, layer));
      if matching == [] then Ok(None) else Ok(Some(ResultLayer(layer, matching)))
  }

  /**
   * What one layer's evaluation yields: it raises exactly when reprojection
   * does; it yields no layer exactly when no candidate matched; otherwise the
   * result layer carries the source's name plus the suffix, its CRS,
   * geometry type and fields, and exactly the matching candidates.
   */
  lemma EvaluateLayerShape(host: Host, commune: Geometry, layer: Layer)
    ensures EvaluateLayer(host, commune, layer).Err? <==> QueryGeometry(host, commune, layer).Err?
    ensures EvaluateLayer(host, commune, layer).Ok? ==>
      var query := QueryGeometry(host, commune, layer).value;
      var matching := MatchingFeatures(host, query, Candidates(host, query, layer));
      var r := EvaluateLayer(host, commune, layer).value;
      && (r.None? <==> matching == [])
      && (r.Some? ==>
            && r.value.name == layer.name + ResultSuffix
            && r.value.crs == layer.crs
            && r.value.wkbType == layer.wkbType
            && r.value.fields == layer.fields
            && r.value.isVector
            && r.value.features == matching
            && r.value.features != [])
  {
  }

  /** The result layer one evaluation contributes to a run: none, or the one it built. */
  function Yield(r: Result<Option<Layer>>): seq<Layer> {
    if r.Ok? && r.value.Some? then [r.value.value] else []
  }

  /**
   * Reference for a run that raised nothing: the result layers of all
   * layers that produced one, in input order.
   */
  function Harvest(host: Host, commune: Geometry, layers: seq<Layer>): (r: seq<Layer>)
    ensures |r| <= |layers|
    ensures forall i :: 0 <= i < |r| ==> r[i].features != [] && r[i].isVector
    decreases |layers|
  {
    if layers == [] then []
    else
      EvaluateLayerShape(host, commune, layers[|layers| - 1]);
      Harvest(host, commune, layers[..|layers| - 1]) + Yield(EvaluateLayer(host, commune, layers[|layers| - 1]))
  }

  /** Harvesting two runs of layers back to back harvests their concatenation. */
  lemma {:induction false} HarvestConcat(host: Host, commune: Geometry, a: seq<Layer>, b: seq<Layer>)
    ensures Harvest(host, commune, a + b) == Harvest(host, commune, a) + Harvest(host, commune, b)
    decreases |b|
  {
    if b == [] {
      assert a + b == a;
    } else {
      assert (a + b)[..|a + b| - 1] == a + b[..|b| - 1];
      HarvestConcat(host, commune, a, b[..|b| - 1]);
    }
  }

  /** Every harvested layer is the result of one input layer. */
  lemma {:induction false} HarvestOrigin(host: Host, commune: Geometry, layers: seq<Layer>, out: Layer)
    requires out in Harvest(host, commune, layers)
    ensures exists j :: 0 <= j < |layers| && EvaluateLayer(host, commune, layers[j]) == Ok(Some(out))
    decreases |layers|
  {
    var n := |layers|;
    var prefix := layers[..n - 1];
    if out in Harvest(host, commune, prefix) {
      HarvestOrigin(host, commune, prefix, out);
      var j :| 0 <= j < |prefix| && EvaluateLayer(host, commune, prefix[j]) == Ok(Some(out));
      assert layers[j] == prefix[j];
    } else {
      assert EvaluateLayer(host, commune, layers[n - 1]) == Ok(Some(out));
    }
  }

  /** Index of the first layer whose evaluation raises, or `|layers|` when none does. */
  function FirstFailure(host: Host, commune: Geometry, layers: seq<Layer>): (k: nat)
    ensures k <= |layers|
    ensures forall j :: 0 <= j < k ==> EvaluateLayer(host, commune, layers[j]).Ok?
    ensures k < |layers| ==> EvaluateLayer(host, commune, layers[k]).Err?
  {
    FirstFailureFrom(host, commune, layers, 0)
  }

  function FirstFailureFrom(host: Host, commune: Geometry, layers: seq<Layer>, i: nat): (k: nat)
    requires i <= |layers|
    requires forall j :: 0 <= j < i ==> EvaluateLayer(host, commune, layers[j]).Ok?
    ensures i <= k <= |layers|
    ensures forall j :: 0 <= j < k ==> EvaluateLayer(host, commune, layers[j]).Ok?
    ensures k < |layers| ==> EvaluateLayer(host, commune, layers[k]).Err?
    decreases |layers| - i
  {
    if i == |layers| || EvaluateLayer(host, commune, layers[i]).Err? then i
    else FirstFailureFrom(host, commune, layers, i + 1)
  }

  /** The first failure is at `i` when every earlier layer succeeds and layer `i` (if any) raises. */
  lemma FirstFailureIs(host: Host, commune: Geometry, layers: seq<Layer>, i: nat)
    requires i <= |layers|
    requires forall j :: 0 <= j < i ==> EvaluateLayer(host, commune, layers[j]).Ok?
    requires i < |layers| ==> EvaluateLayer(host, commune, layers[i]).Err?
    ensures FirstFailure(host, commune, layers) == i
  {
  }

  lemma HarvestSnoc(host: Host, commune: Geometry, layers: seq<Layer>, i: nat)
    requires i < |layers|
    ensures Harvest(host, commune, layers[..i + 1])
      == Harvest(host, commune, layers[..i]) + Yield(EvaluateLayer(host, commune, layers[i]))
  {
    assert layers[..i + 1][..i] == layers[..i];
  }

  /**
   * The body of `intersect_commune`'s loop for one layer, after its progress
   * call: reproject, stream the bounding-box candidates, keep the matching
   * features as copies, and build the result layer when something matched.
   */
  method IntersectLayer(host: Host, commune: Geometry, layer: Layer) returns (r: Result<Option<Layer>>)
    ensures r == EvaluateLayer(host, commune, layer)
  {
    var query: Geometry;
    if layer.crs != Wgs84 {
      var moved := host.transform(commune, Wgs84, layer.crs);
      if moved.Err? {
        return Err(moved.message);
      }
      query := moved.value;
    } else {
      query := commune;
    }

    var stream := host.getFeatures(layer, host.boundingBox(query));
    var matching: seq<Feature> := [];
    var j := 0;
    while j < |stream|
      invariant 0 <= j <= |stream|
      invariant matching == Filter(Keep(host, query), stream[..j])
    {
      var feat := stream[j];
      if feat.geometry.Some? && host.intersects(query, feat.geometry.value) {
        matching := matching + [Feature(feat.geometry, feat.attributes)];
      }
      FilterSnoc(Keep(host, query), stream, j);
      j := j + 1;
    }
    assert stream[..j] == stream;

    if matching != [] {
      r := Ok(Some(ResultLayer(layer, matching)));
    } else {
      r := Ok(None);
    }
  }

  /** The calls made before the first `count` layers: `(j, n, name_j)` for each `j < count`. */
  function StartCalls(layers: seq<Layer>, count: nat): (r: seq<Progress>)
    requires count <= |layers|
    ensures |r| == count
    ensures forall j :: 0 <= j < count ==> r[j] == Progress(j, |layers|, layers[j].name)
  {
    seq(count, j requires 0 <= j < count => Progress(j, |layers|, layers[j].name))
  }

  /**
   * One pass of `intersect_commune`'s loop: the progress call for layer `i`,
   * then its evaluation; when that succeeds, the run so far extends to `i + 1`.
   */
  method IntersectStep(host: Host, commune: Geometry, layers: seq<Layer>, i: nat, reporting: bool,
                       results: seq<Layer>, calls: seq<Progress>)
    returns (r: Result<Option<Layer>>, results': seq<Layer>, calls': seq<Progress>)
    requires i < |layers|
    requires results == Harvest(host, commune, layers[..i])
    requires calls == if reporting then StartCalls(layers, i) else []
    ensures r == EvaluateLayer(host, commune, layers[i])
    ensures calls' == if reporting then StartCalls(layers, i + 1) else []
    ensures r.Ok? ==> results' == Harvest(host, commune, layers[..i + 1])
  {
    calls' := calls;
    if reporting {
      calls' := calls' + [Progress(i, |layers|, layers[i].name)];
      assert calls' == StartCalls(layers, i + 1);
    }
    r := IntersectLayer(host, commune, layers[i]);
    HarvestSnoc(host, commune, layers, i);
    results' := results + Yield(r);
  }

  /**
   * `intersect_commune`. With `reporting` the callback is present and every
   * call is recorded in `calls`. A reprojection that raises aborts the whole
   * run after that layer's progress call; otherwise the run returns the
   * non-empty result layers in input order and reports `n + 1` calls.
   */
  method IntersectCommune(host: Host, commune: Geometry, layers: seq<Layer>, reporting: bool)
    returns (outcome: Result<seq<Layer>>, calls: seq<Progress>)
    ensures outcome.Ok? <==> FirstFailure(host, commune, layers) == |layers|
    ensures outcome.Ok? ==> outcome.value == Harvest(host, commune, layers)
    ensures outcome.Err? ==>
      var k := FirstFailure(host, commune, layers);
      k < |layers| && outcome == Err(EvaluateLayer(host, commune, layers[k]).message)
    ensures !reporting ==> calls == []
    ensures reporting && outcome.Ok? ==>
      calls == StartCalls(layers, |layers|) + [Progress(|layers|, |layers|, "")]
    ensures reporting && outcome.Err? ==>
      calls == StartCalls(layers, FirstFailure(host, commune, layers) + 1)
  {
    var results: seq<Layer> := [];
    calls := [];
    var i := 0;
    while i < |layers|
      invariant 0 <= i <= |layers|
      invariant forall j :: 0 <= j < i ==> EvaluateLayer(host, commune, layers[j]).Ok?
      invariant results == Harvest(host, commune, layers[..i])
      invariant calls == if reporting then StartCalls(layers, i) else []
    {
      var r;
      r, results, calls := IntersectStep(host, commune, layers, i, reporting, results, calls);
      if r.Err? {
        FirstFailureIs(host, commune, layers, i);
        outcome := Err(r.message);
        return;
      }
      i := i + 1;
    }
    assert layers[..i] == layers;
    FirstFailureIs(host, commune, layers, i);
    if reporting {
      calls := calls + [Progress(|layers|, |layers|, "")];
    }
    outcome := Ok(results);
  }

  /**
   * A run that raises nothing returns at most one result per layer, none of
   * them empty, and reports `n + 1` progress calls ending with `(n, n, "")`.
   */
  lemma IntersectCommuneShape(host: Host, commune: Geometry, layers: seq<Layer>, outcome: Result<seq<Layer>>, calls: seq<Progress>)
    requires outcome.Ok? && outcome.value == Harvest(host, commune, layers)
    requires calls == StartCalls(layers, |layers|) + [Progress(|layers|, |layers|, "")]
    ensures |outcome.value| <= |layers|
    ensures forall i :: 0 <= i < |outcome.value| ==> outcome.value[i].features != []
    ensures |calls| == |layers| + 1
    ensures forall i :: 0 <= i < |layers| ==> calls[i] == Progress(i, |layers|, layers[i].name)
    ensures calls[|layers|] == Progress(|layers|, |layers|, "")
  {
  }

  // =============================================================== publishing

  /**
   * `findGroup`: the first group named `name` in a pre-order walk of the
   * forest (a group is checked before its children, its children before its
   * later siblings).
   */
  function FindGroup(nodes: seq<Node>, name: string): (g: Option<Node>)
    ensures g.Some? ==> g.value.Group? && g.value.name == name
    decreases nodes
  {
    if nodes == [] then None
    else match nodes[0]
      case Group(n, _, children) =>
        if n == name then Some(nodes[0])
        else if FindGroup(children, name).Some? then FindGroup(children, name)
        else FindGroup(nodes[1..], name)
      case _ => FindGroup(nodes[1..], name)
  }

  /** Some group named `name` occurs anywhere in the forest, at any depth. */
  predicate HasGroup(nodes: seq<Node>, name: string)
    decreases nodes
  {
    exists i :: 0 <= i < |nodes| && nodes[i].Group?
      && (nodes[i].name == name || HasGroup(nodes[i].children, name))
  }

  /** The search finds a group exactly when one with that name exists somewhere in the forest. */
  lemma {:induction false} FindGroupComplete(nodes: seq<Node>, name: string)
    ensures FindGroup(nodes, name).Some? <==> HasGroup(nodes, name)
    decreases nodes
  {
    if nodes == [] {
      assert !HasGroup(nodes, name);
    } else {
      var rest := nodes[1..];
      FindGroupComplete(rest, name);
      if HasGroup(rest, name) {
        var i :| 0 <= i < |rest| && rest[i].Group? && (rest[i].name == name || HasGroup(rest[i].children, name));
        assert nodes[i + 1] == rest[i];
      }
      if HasGroup(nodes, name) {
        var i :| 0 <= i < |nodes| && nodes[i].Group? && (nodes[i].name == name || HasGroup(nodes[i].children, name));
        if i > 0 {
          assert rest[i - 1] == nodes[i];
        }
      }
      match nodes[0]
      case Group(n, _, children) =>
        FindGroupComplete(children, name);
      case LayerNode(_, _) =>
      case Custom(_) =>
    }
  }

  /** Reference order: every group of the forest, each before its children, children before later siblings. */
  function PreorderGroups(nodes: seq<Node>): seq<Node>
    decreases nodes
  {
    if nodes == [] then []
    else
      (match nodes[0]
       case Group(_, _, children) => [nodes[0]] + PreorderGroups(children)
       case _ => [])
      + PreorderGroups(nodes[1..])
  }

  /** The first group named `name` in a list of nodes. */
  function FirstNamed(groups: seq<Node>, name: string): Option<Node> {
    if groups == [] then None
    else if groups[0].Group? && groups[0].name == name then Some(groups[0])
    else FirstNamed(groups[1..], name)
  }

  lemma {:induction false} FirstNamedConcat(a: seq<Node>, b: seq<Node>, name: string)
    ensures FirstNamed(a + b, name) == if FirstNamed(a, name).Some? then FirstNamed(a, name) else FirstNamed(b, name)
  {
    if a == [] {
      assert a + b == b;
    } else {
      assert (a + b)[0] == a[0];
      assert (a + b)[1..] == a[1..] + b;
      FirstNamedConcat(a[1..], b, name);
    }
  }

  /** The search returns the first group with that name in the pre-order listing of all groups. */
  lemma {:induction false} FindGroupIsFirst(nodes: seq<Node>, name: string)
    ensures FindGroup(nodes, name) == FirstNamed(PreorderGroups(nodes), name)
    decreases nodes
  {
    if nodes != [] {
      FindGroupIsFirst(nodes[1..], name);
      match nodes[0]
      case Group(n, _, children) =>
        FindGroupIsFirst(children, name);
        var own := [nodes[0]] + PreorderGroups(children);
        FirstNamedConcat(own, PreorderGroups(nodes[1..]), name);
        assert own[0] == nodes[0] && own[1..] == PreorderGroups(children);
      case LayerNode(_, _) =>
        assert [] + PreorderGroups(nodes[1..]) == PreorderGroups(nodes[1..]);
      case Custom(_) =>
        assert [] + PreorderGroups(nodes[1..]) == PreorderGroups(nodes[1..]);
    }
  }

  /** The forest with the children of `FindGroup(nodes, name)` replaced by `kids`. */
  function ReplaceGroupChildren(nodes: seq<Node>, name: string, kids: seq<Node>): seq<Node>
    decreases nodes
  {
    if nodes == [] then []
    else match nodes[0]
      case Group(n, checked, children) =>
        if n == name then [Group(n, checked, kids)] + nodes[1..]
        else if FindGroup(children, name).Some? then
          [Group(n, checked, ReplaceGroupChildren(children, name, kids))] + nodes[1..]
        else [nodes[0]] + ReplaceGroupChildren(nodes[1..], name, kids)
      case _ => [nodes[0]] + ReplaceGroupChildren(nodes[1..], name, kids)
  }

  /** `group.addLayer(layer)` for each result: a checked layer node per layer, in order. */
  function LayerNodes(layers: seq<Layer>): (r: seq<Node>)
    ensures |r| == |layers|
    ensures forall i :: 0 <= i < |r| ==> r[i] == LayerNode(true, Some(layers[i]))
  {
    seq(|layers|, i requires 0 <= i < |layers| => LayerNode(true, Some(layers[i])))
  }

  /**
   * `add_results_to_project`: empty the results group and refill it with
   * `results`; when no such group exists, first insert an empty checked one
   * at index 0 of the root.
   */
  function AddResultsToProject(tree: LayerTree, results: seq<Layer>): (t: LayerTree)
    ensures t.checked == tree.checked
    ensures !HasGroup(tree.children, ResultsGroupName) ==>
      t.children == [Group(ResultsGroupName, true, LayerNodes(results))] + tree.children
    ensures HasGroup(tree.children, ResultsGroupName) ==> |t.children| == |tree.children|
    ensures HasGroup(t.children, ResultsGroupName)
    ensures FindGroup(t.children, ResultsGroupName).Some?
    ensures FindGroup(t.children, ResultsGroupName).value.children == LayerNodes(results)
  {
    var kids := LayerNodes(results);
    FindGroupComplete(tree.children, ResultsGroupName);
    if FindGroup(tree.children, ResultsGroupName).Some? then
      FindAfterReplace(tree.children, ResultsGroupName, kids);
      FindGroupComplete(ReplaceGroupChildren(tree.children, ResultsGroupName, kids), ResultsGroupName);
      LayerTree(tree.checked, ReplaceGroupChildren(tree.children, ResultsGroupName, kids))
    else
      FindGroupComplete([Group(ResultsGroupName, true, kids)] + tree.children, ResultsGroupName);
      LayerTree(tree.checked, [Group(ResultsGroupName, true, kids)] + tree.children)
  }

  /**
   * Replacing the children of the found group keeps the forest's top-level
   * length, and the search now finds that same group with the new children.
   */
  lemma {:induction false} FindAfterReplace(nodes: seq<Node>, name: string, kids: seq<Node>)
    requires FindGroup(nodes, name).Some?
    ensures |ReplaceGroupChildren(nodes, name, kids)| == |nodes|
    ensures FindGroup(ReplaceGroupChildren(nodes, name, kids), name)
         == Some(FindGroup(nodes, name).value.(children := kids))
    decreases nodes
  {
    var r := ReplaceGroupChildren(nodes, name, kids);
    match nodes[0]
    case Group(n, checked, children) =>
      if n == name {
      } else if FindGroup(children, name).Some? {
        FindAfterReplace(children, name, kids);
      } else {
        FindAfterReplace(nodes[1..], name, kids);
        assert r[1..] == ReplaceGroupChildren(nodes[1..], name, kids);
      }
    case LayerNode(_, _) =>
      FindAfterReplace(nodes[1..], name, kids);
      assert r[1..] == ReplaceGroupChildren(nodes[1..], name, kids);
    case Custom(_) =>
      FindAfterReplace(nodes[1..], name, kids);
      assert r[1..] == ReplaceGroupChildren(nodes[1..], name, kids);
  }

  /** A second replacement overrides the first: nothing of the first survives. */
  lemma {:induction false} ReplaceTwice(nodes: seq<Node>, name: string, kids1: seq<Node>, kids2: seq<Node>)
    requires FindGroup(nodes, name).Some?
    ensures ReplaceGroupChildren(ReplaceGroupChildren(nodes, name, kids1), name, kids2)
         == ReplaceGroupChildren(nodes, name, kids2)
    decreases nodes
  {
    var r := ReplaceGroupChildren(nodes, name, kids1);
    match nodes[0]
    case Group(n, checked, children) =>
      if n == name {
      } else if FindGroup(children, name).Some? {
        FindAfterReplace(children, name, kids1);
        ReplaceTwice(children, name, kids1, kids2);
      } else {
        ReplaceTwice(nodes[1..], name, kids1, kids2);
        assert r[1..] == ReplaceGroupChildren(nodes[1..], name, kids1);
      }
    case LayerNode(_, _) =>
      ReplaceTwice(nodes[1..], name, kids1, kids2);
      assert r[1..] == ReplaceGroupChildren(nodes[1..], name, kids1);
    case Custom(_) =>
      ReplaceTwice(nodes[1..], name, kids1, kids2);
      assert r[1..] == ReplaceGroupChildren(nodes[1..], name, kids1);
  }

  /**
   * Only the group's children change: putting its old children back
   * restores the forest exactly.
   */
  lemma {:induction false} ReplaceRestores(nodes: seq<Node>, name: string, kids: seq<Node>)
    requires FindGroup(nodes, name).Some?
    ensures ReplaceGroupChildren(ReplaceGroupChildren(nodes, name, kids), name,
                                 FindGroup(nodes, name).value.children) == nodes
    decreases nodes
  {
    var r := ReplaceGroupChildren(nodes, name, kids);
    match nodes[0]
    case Group(n, checked, children) =>
      if n == name {
        assert [nodes[0]] + nodes[1..] == nodes;
      } else if FindGroup(children, name).Some? {
        FindAfterReplace(children, name, kids);
        ReplaceRestores(children, name, kids);
        assert [nodes[0]] + nodes[1..] == nodes;
      } else {
        ReplaceRestores(nodes[1..], name, kids);
        assert r[1..] == ReplaceGroupChildren(nodes[1..], name, kids);
        assert [nodes[0]] + nodes[1..] == nodes;
      }
    case LayerNode(_, _) =>
      ReplaceRestores(nodes[1..], name, kids);
      assert r[1..] == ReplaceGroupChildren(nodes[1..], name, kids);
      assert [nodes[0]] + nodes[1..] == nodes;
    case Custom(_) =>
      ReplaceRestores(nodes[1..], name, kids);
      assert r[1..] == ReplaceGroupChildren(nodes[1..], name, kids);
      assert [nodes[0]] + nodes[1..] == nodes;
  }

  /**
   * Publishing replaces rather than accumulates: after publishing `first`
   * and then `second`, the project is as if only `second` had been published.
   */
  lemma PublishLastWins(tree: LayerTree, first: seq<Layer>, second: seq<Layer>)
    ensures AddResultsToProject(AddResultsToProject(tree, first), second)
         == AddResultsToProject(tree, second)
  {
    var name := ResultsGroupName;
    if FindGroup(tree.children, name).Some? {
      ReplaceTwice(tree.children, name, LayerNodes(first), LayerNodes(second));
    } else {
      var t1 := AddResultsToProject(tree, first);
      assert t1.children[1..] == tree.children;
    }
  }

  /** Publishing the same results twice leaves one copy of each. */
  lemma PublishIdempotent(tree: LayerTree, results: seq<Layer>)
    ensures AddResultsToProject(AddResultsToProject(tree, results), results)
         == AddResultsToProject(tree, results)
  {
    PublishLastWins(tree, results, results);
  }

  /**
   * When the group already exists, publishing touches nothing else: giving
   * the group its old children back yields the original tree.
   */
  lemma PublishTouchesOnlyGroup(tree: LayerTree, results: seq<Layer>)
    requires FindGroup(tree.children, ResultsGroupName).Some?
    ensures ReplaceGroupChildren(AddResultsToProject(tree, results).children, ResultsGroupName,
                                 FindGroup(tree.children, ResultsGroupName).value.children)
         == tree.children
  {
    ReplaceRestores(tree.children, ResultsGroupName, LayerNodes(results));
  }
}

=== FILE: qgis.dfy ===
/**
 * The slice of the QGIS object model the plugin touches: coordinate
 * reference systems, opaque geometries, attribute values, features, vector
 * layers, the layer tree, progress events, and the host's spatial
 * primitives passed in as plain functions.
 */
module Qgis {
  import opened Base
  import Temporal

  /** A coordinate reference system, identified by its authority id (`"EPSG:2154"`). */
  datatype Crs = Crs(authid: string)

  /** The frame commune boundaries are expressed in. */
  const Wgs84: Crs := Crs("EPSG:4326")

  /** A geometry is opaque to the plugin: only the host's primitives look inside. */
  datatype Geometry = Geometry(wkt: string)

  /** An axis-aligned bounding box. */
  datatype Rect = Rect(xMin: real, yMin: real, xMax: real, yMax: real)

  /** A geometry type, known to the plugin only by `QgsWkbTypes.displayString`. */
  datatype WkbType = WkbType(displayString: string)

  datatype Field = Field(name: string, typeName: string)

  /**
   * An attribute value as PyQGIS hands it over: Python `None`, one of Qt's
   * temporal classes, or any other Python value (text, numbers, booleans, ...).
   */
  datatype Value =
    | Null
    | DateTimeValue(date: Temporal.Date, time: Temporal.Time)
    | DateValue(date: Temporal.Date)
    | TimeValue(time: Temporal.Time)
    | Text(text: string)
    | Scalar(repr: string)

  /** A feature: an optional geometry and attributes positioned by the layer's fields. */
  datatype Feature = Feature(geometry: Option<Geometry>, attributes: seq<Value>)

  /**
   * A map layer. `isVector` says whether it is a `QgsVectorLayer`; `features`
   * is what a plain `getFeatures()` yields, in order.
   */
  datatype Layer = Layer(
    name: string,
    providerType: string,
    source: string,
    isVector: bool,
    crs: Crs,
    wkbType: WkbType,
    fields: seq<Field>,
    features: seq<Feature>)

  /**
   * A node of the layer tree with its own visibility check box. A layer node
   * may point at no layer; `Custom` stands for any other node kind.
   */
  datatype Node =
    | Group(name: string, checked: bool, children: seq<Node>)
    | LayerNode(checked: bool, layer: Option<Layer>)
    | Custom(checked: bool)

  /** The root of a project's layer tree. */
  datatype LayerTree = LayerTree(checked: bool, children: seq<Node>)

  /** One call of a progress callback: `(current, total, name)`. */
  datatype Progress = Progress(current: int, total: int, name: string)

  /**
   * The host's spatial primitives, uninterpreted:
   * `intersects(a, b)` is `a.intersects(b)`, `boundingBox(g)` is `g.boundingBox()`,
   * `transform(g, from, to)` reprojects a copy of `g` or raises,
   * `getFeatures(layer, rect)` is `layer.getFeatures(QgsFeatureRequest().setFilterRect(rect))`.
   */
  datatype Host = Host(
    intersects: (Geometry, Geometry) -> bool,
    boundingBox: Geometry -> Rect,
    transform: (Geometry, Crs, Crs) -> Result<Geometry>,
    getFeatures: (Layer, Rect) -> seq<Feature>)
}

=== FILE: seqs.dfy ===
/** Order-preserving selection and mapping over sequences. */
module Seqs {

  /** The elements of `s` that satisfy `p`, in the order they occur in `s`. */
  function Filter<T>(p: T -> bool, s: seq<T>): (r: seq<T>)
    ensures |r| <= |s|
    ensures forall i :: 0 <= i < |r| ==> r[i] in s && p(r[i])
    ensures forall i :: 0 <= i < |s| && p(s[i]) ==> s[i] in r
  {
    if s == [] then []
    else Filter(p, s[..|s| - 1]) + (if p(s[|s| - 1]) then [s[|s| - 1]] else [])
  }

  /** Filtering a prefix one element longer appends at most that element. */
  lemma FilterSnoc<T>(p: T -> bool, s: seq<T>, i: nat)
    requires i < |s|
    ensures Filter(p, s[..i + 1]) == Filter(p, s[..i]) + (if p(s[i]) then [s[i]] else [])
  {
    assert s[..i + 1][..i] == s[..i];
  }

  /** Filtering distributes over concatenation: nothing is reordered across the seam. */
  lemma {:induction false} FilterConcat<T>(p: T -> bool, a: seq<T>, b: seq<T>)
    ensures Filter(p, a + b) == Filter(p, a) + Filter(p, b)
    decreases |b|
  {
    if b == [] {
      assert a + b == a;
    } else {
      var b' := b[..|b| - 1];
      assert (a + b)[..|a + b| - 1] == a + b';
      FilterConcat(p, a, b');
    }
  }

  /** An element survives exactly when it satisfies `p`: a singleton is kept or dropped whole. */
  lemma FilterSingleton<T>(p: T -> bool, x: T)
    ensures Filter(p, [x]) == (if p(x) then [x] else [])
  {
    assert [x][..0] == [];
  }

  /** Filtering a sequence whose elements all satisfy `p` changes nothing. */
  lemma {:induction false} FilterAll<T>(p: T -> bool, s: seq<T>)
    requires forall i :: 0 <= i < |s| ==> p(s[i])
    ensures Filter(p, s) == s
  {
    if s != [] {
      FilterAll(p, s[..|s| - 1]);
    }
  }

  /** `f` applied to every element of `s`, positionally. */
  function Map<A, B>(f: A -> B, s: seq<A>): (r: seq<B>)
    ensures |r| == |s|
    ensures forall i :: 0 <= i < |s| ==> r[i] == f(s[i])
  {
    if s == [] then []
    else Map(f, s[..|s| - 1]) + [f(s[|s| - 1])]
  }

  /** Mapping a prefix one element longer appends that element's image. */
  lemma MapSnoc<A, B>(f: A -> B, s: seq<A>, i: nat)
    requires i < |s|
    ensures Map(f, s[..i + 1]) == Map(f, s[..i]) + [f(s[i])]
  {
    assert s[..i + 1][..i] == s[..i];
  }
}

=== FILE: temporal.dfy ===
/**
 * Qt's date and time values as the CSV export sees them: which values are
 * valid (`isValid()`), and their rendering with the fixed patterns
 * `yyyy-MM-dd`, `HH:mm:ss` and `yyyy-MM-dd HH:mm:ss`. A parser for each
 * pattern is the partner of its formatter.
 */
module Temporal {
  import opened Base
  import opened Text

  datatype Date = Date(year: int, month: int, day: int)

  datatype Time = Time(hour: int, minute: int, second: int, msec: int)

  /** Qt's proleptic Gregorian calendar has no year 0: year -1 is the leap year before 1. */
  predicate IsLeapYear(year: int) {
    var y := if year < 1 then year + 1 else year;
    (y % 4 == 0 && y % 100 != 0) || y % 400 == 0
  }

  /** The length of a month: February has 29 days in leap years and 28 otherwise. */
  function DaysInMonth(year: int, month: int): (n: int)
    requires 1 <= month <= 12
    ensures 28 <= n <= 31
    ensures n == 29 <==> month == 2 && IsLeapYear(year)
    ensures n == 28 <==> month == 2 && !IsLeapYear(year)
    ensures n == 30 <==> month == 4 || month == 6 || month == 9 || month == 11
    ensures n == 31 <==> month == 1 || month == 3 || month == 5 || month == 7 || month == 8 || month == 10 || month == 12
  {
    if month == 2 then (if IsLeapYear(year) then 29 else 28)
    else if month == 4 || month == 6 || month == 9 || month == 11 then 30
    else 31
  }

  /** `QDate.isValid()`. */
  predicate ValidDate(d: Date) {
    d.year != 0 && 1 <= d.month <= 12 && 1 <= d.day <= DaysInMonth(d.year, d.month)
  }

  /** `QTime.isValid()`. */
  predicate ValidTime(t: Time) {
    0 <= t.hour < 24 && 0 <= t.minute < 60 && 0 <= t.second < 60 && 0 <= t.msec < 1000
  }

  // ------------------------------------------------------------ formatting

  /** A two-digit field (`MM`, `dd`, `HH`, `mm`, `ss`). */
  function TwoDigits(n: int): (s: string)
    requires 0 <= n < 100
    ensures |s| == 2 && AllDigits(s) && DecimalValue(s) == n
  {
    var s := [DigitChar(n / 10), DigitChar(n % 10)];
    assert s[..1] == [DigitChar(n / 10)] && s[..1][..0] == [];
    assert DecimalValue(s[..1]) == n / 10;
    s
  }

  /** The `yyyy` field: at least four digits, a minus sign in front of a year before 1. */
  function FormatYear(year: int): string {
    if year < 0 then "-" + ZeroPad(Decimal(-year), 4) else ZeroPad(Decimal(year), 4)
  }

  /** `QDate.toString("yyyy-MM-dd")` for a valid date. */
  function FormatDate(d: Date): string
    requires ValidDate(d)
  {
    FormatYear(d.year) + "-" + TwoDigits(d.month) + "-" + TwoDigits(d.day)
  }

  /** `QTime.toString("HH:mm:ss")` for a valid time: milliseconds are not shown. */
  function FormatTime(t: Time): string
    requires ValidTime(t)
  {
    TwoDigits(t.hour) + ":" + TwoDigits(t.minute) + ":" + TwoDigits(t.second)
  }

  /** `QDateTime.toString("yyyy-MM-dd HH:mm:ss")` for a valid date-time. */
  function FormatDateTime(d: Date, t: Time): string
    requires ValidDate(d) && ValidTime(t)
  {
    FormatDate(d) + " " + FormatTime(t)
  }

  // --------------------------------------------------------------- parsing

  function ParseYear(s: string): Option<int> {
    if 2 <= |s| && s[0] == '-' && AllDigits(s[1..]) then Some(0 - DecimalValue(s[1..]))
    else if 1 <= |s| && AllDigits(s) then Some(DecimalValue(s))
    else None
  }

  /** Reads `yyyy-MM-dd` (the year part may be longer or signed) back into its fields. */
  function ParseDate(s: string): Option<Date> {
    var n := |s|;
    if n >= 7 && s[n - 6] == '-' && s[n - 3] == '-'
       && AllDigits(s[n - 5..n - 3]) && AllDigits(s[n - 2..])
    then
      match ParseYear(s[..n - 6])
      case Some(y) => Some(Date(y, DecimalValue(s[n - 5..n - 3]), DecimalValue(s[n - 2..])))
      case None => None
    else None
  }

  /** Reads `HH:mm:ss` back; the milliseconds are zero since the pattern has none. */
  function ParseTime(s: string): Option<Time> {
    if |s| == 8 && s[2] == ':' && s[5] == ':'
       && AllDigits(s[..2]) && AllDigits(s[3..5]) && AllDigits(s[6..])
    then Some(Time(DecimalValue(s[..2]), DecimalValue(s[3..5]), DecimalValue(s[6..]), 0))
    else None
  }

  /** Reads `yyyy-MM-dd HH:mm:ss` back into a date and a time. */
  function ParseDateTime(s: string): Option<(Date, Time)> {
    var n := |s|;
    if n >= 9 && s[n - 9] == ' ' then
      match (ParseDate(s[..n - 9]), ParseTime(s[n - 8..]))
      case (Some(d), Some(t)) => Some((d, t))
      case _ => None
    else None
  }

  // ------------------------------------------------------------ round trips

  lemma YearRoundTrip(year: int)
    requires year != 0
    ensures ParseYear(FormatYear(year)) == Some(year)
    ensures 4 <= |FormatYear(year)|
  {
    if year < 0 {
      var digits := ZeroPad(Decimal(-year), 4);
      ZeroPadValue(Decimal(-year), 4);
      DecimalRoundTrip(-year);
      assert ("-" + digits)[1..] == digits;
    } else {
      ZeroPadValue(Decimal(year), 4);
      DecimalRoundTrip(year);
    }
  }

  /** A formatted valid date reads back as the same date. */
  lemma FormatDateRoundTrip(d: Date)
    requires ValidDate(d)
    ensures ParseDate(FormatDate(d)) == Some(d)
  {
    YearRoundTrip(d.year);
    var y := FormatYear(d.year);
    var s := FormatDate(d);
    var n := |s|;
    assert s[..n - 6] == y;
    assert s[n - 5..n - 3] == TwoDigits(d.month);
    assert s[n - 2..] == TwoDigits(d.day);
  }

  /** A formatted valid time reads back as the same time with its milliseconds dropped. */
  lemma FormatTimeRoundTrip(t: Time)
    requires ValidTime(t)
    ensures ParseTime(FormatTime(t)) == Some(Time(t.hour, t.minute, t.second, 0))
    ensures |FormatTime(t)| == 8
  {
    var s := FormatTime(t);
    assert s[..2] == TwoDigits(t.hour);
    assert s[3..5] == TwoDigits(t.minute);
    assert s[6..] == TwoDigits(t.second);
  }

  /** A formatted valid date-time reads back as its date and its time without milliseconds. */
  lemma FormatDateTimeRoundTrip(d: Date, t: Time)
    requires ValidDate(d) && ValidTime(t)
    ensures ParseDateTime(FormatDateTime(d, t)) == Some((d, Time(t.hour, t.minute, t.second, 0)))
  {
    FormatDateRoundTrip(d);
    FormatTimeRoundTrip(t);
    var s := FormatDateTime(d, t);
    var n := |s|;
    assert s[..n - 9] == FormatDate(d);
    assert s[n - 8..] == FormatTime(t);
  }

  /** Years 1 to 9999 give the fixed widths 10 and 19 of the two date patterns. */
  lemma FormatWidths(d: Date, t: Time)
    requires ValidDate(d) && ValidTime(t) && 1 <= d.year <= 9999
    ensures |FormatDate(d)| == 10
    ensures |FormatDateTime(d, t)| == 19
  {
    assert Pow10(4) == 10000;
    DecimalLength(d.year, 4);
    FormatTimeRoundTrip(t);
  }
}

=== FILE: text.dfy ===
/**
 * Character classes and string helpers with Python's `str` semantics:
 * whitespace as `str.isspace` / regex `\s`, word characters as regex `\w`,
 * `upper`/`lower`, substring tests, `strip` and `removesuffix`, and the
 * decimal digit strings used by the date/time formatters.
 */
module Text {

  /** Python's `str.isspace()`, which is also what regex `\s` matches in a `str` pattern. */
  predicate IsSpace(c: char) {
    || c == ' '
    || ('\t' <= c <= '\r')
    || ('\U{1C}' <= c <= '\U{1F}')
    || c == '\U{85}' || c == '\U{A0}' || c == '\U{1680}'
    || ('\U{2000}' <= c <= '\U{200A}')
    || c == '\U{2028}' || c == '\U{2029}' || c == '\U{202F}'
    || c == '\U{205F}' || c == '\U{3000}'
  }

  predicate IsAsciiDigit(c: char) { '0' <= c <= '9' }

  predicate IsAsciiUpper(c: char) { 'A' <= c <= 'Z' }

  predicate IsAsciiLower(c: char) { 'a' <= c <= 'z' }

  /**
   * Regex `\w` in a `str` pattern: `_` and the alphanumeric characters.
   * Classified up to U+024F: Latin-1 and Latin Extended-A and -B, which
   * hold only letters; see README for the characters beyond.
   */
  predicate IsWordChar(c: char) {
    || IsAsciiDigit(c) || IsAsciiUpper(c) || IsAsciiLower(c) || c == '_'
    || c == '\U{AA}' || c == '\U{B2}' || c == '\U{B3}' || c == '\U{B5}'
    || c == '\U{B9}' || c == '\U{BA}' || ('\U{BC}' <= c <= '\U{BE}')
    || ('\U{C0}' <= c <= '\U{D6}') || ('\U{D8}' <= c <= '\U{F6}')
    || ('\U{F8}' <= c <= '\U{FF}')
    || ('\U{100}' <= c <= '\U{24F}')
  }

  // ---------------------------------------------------------------- case

  /**
   * `str.upper` on one character, for every character whose upper case is an
   * ASCII letter: the ASCII lower-case letters, long s (U+017F) and dotless i (U+0131).
   */
  function UpperChar(c: char): char {
    if IsAsciiLower(c) then (c as int - 32) as char
    else if c == '\U{17F}' then 'S'
    else if c == '\U{131}' then 'I'
    else c
  }

  /**
   * `str.lower` on one character, for every character whose lower case is a
   * single ASCII letter: the ASCII capitals and the Kelvin sign (U+212A).
   */
  function LowerChar(c: char): char {
    if IsAsciiUpper(c) then (c as int + 32) as char
    else if c == '\U{212A}' then 'k'
    else c
  }

  function Upper(s: string): (r: string)
    ensures |r| == |s|
    ensures forall i :: 0 <= i < |s| ==> r[i] == UpperChar(s[i])
  {
    seq(|s|, i requires 0 <= i < |s| => UpperChar(s[i]))
  }

  function Lower(s: string): (r: string)
    ensures |r| == |s|
    ensures forall i :: 0 <= i < |s| ==> r[i] == LowerChar(s[i])
  {
    seq(|s|, i requires 0 <= i < |s| => LowerChar(s[i]))
  }

  /** Folds ASCII capitals onto their lower-case letter and leaves everything else alone. */
  function AsciiFold(c: char): char {
    if IsAsciiUpper(c) then (c as int + 32) as char else c
  }

  /** `a` and `b` spell the same text once ASCII letter case is ignored. */
  predicate SameUpToAsciiCase(a: string, b: string) {
    |a| == |b| && forall i :: 0 <= i < |a| ==> AsciiFold(a[i]) == AsciiFold(b[i])
  }

  /** Upper-casing forgets ASCII case. */
  lemma UpperIgnoresAsciiCase(a: string, b: string)
    requires SameUpToAsciiCase(a, b)
    ensures Upper(a) == Upper(b)
  {
    forall i | 0 <= i < |a|
      ensures UpperChar(a[i]) == UpperChar(b[i])
    {
      assert AsciiFold(a[i]) == AsciiFold(b[i]);
    }
  }

  /** Lower-casing forgets ASCII case. */
  lemma LowerIgnoresAsciiCase(a: string, b: string)
    requires SameUpToAsciiCase(a, b)
    ensures Lower(a) == Lower(b)
  {
    forall i | 0 <= i < |a|
      ensures LowerChar(a[i]) == LowerChar(b[i])
    {
      assert AsciiFold(a[i]) == AsciiFold(b[i]);
    }
  }

  // ----------------------------------------------------------- substrings

  /** `m` occurs in `s` starting at index `i`. */
  predicate OccursAt(s: string, m: string, i: int) {
    0 <= i && i + |m| <= |s| && s[i..i + |m|] == m
  }

  /** Python's `m in s` for strings. */
  predicate Contains(s: string, m: string) {
    exists i :: 0 <= i <= |s| - |m| && OccursAt(s, m, i)
  }

  /** Python's `s.endswith(suffix)`. */
  predicate HasSuffix(s: string, suffix: string) {
    |suffix| <= |s| && s[|s| - |suffix|..] == suffix
  }

  /** Python's `s.removesuffix(suffix)`: drops `suffix` once when `s` ends with it. */
  function RemoveSuffix(s: string, suffix: string): (r: string)
    ensures HasSuffix(s, suffix) ==> r + suffix == s
    ensures !HasSuffix(s, suffix) ==> r == s
  {
    if HasSuffix(s, suffix) then s[..|s| - |suffix|] else s
  }

  /** Removing a suffix that was just appended gives the original text back. */
  lemma RemoveAppendedSuffix(s: string, suffix: string)
    ensures RemoveSuffix(s + suffix, suffix) == s
  {
    assert (s + suffix)[|s + suffix| - |suffix|..] == suffix;
    assert (s + suffix)[..|s|] == s;
  }

  // ----------------------------------------------------------------- strip

  /** Every character of `t` is whitespace. */
  predicate AllSpace(t: string) {
    forall j :: 0 <= j < |t| ==> IsSpace(t[j])
  }

  /** The length of the whitespace run that opens `s`. */
  function LeadingSpaces(s: string): (n: nat)
    ensures n <= |s|
    ensures AllSpace(s[..n])
    ensures n < |s| ==> !IsSpace(s[n])
  {
    if s != [] && IsSpace(s[0]) then
      var n := 1 + LeadingSpaces(s[1..]);
      assert forall j :: 1 <= j < n ==> s[..n][j] == s[1..][..n - 1][j - 1];
      n
    else 0
  }

  /** The length of the whitespace run that closes `s`. */
  function TrailingSpaces(s: string): (n: nat)
    ensures n <= |s|
    ensures AllSpace(s[|s| - n..])
    ensures n < |s| ==> !IsSpace(s[|s| - n - 1])
  {
    if s != [] && IsSpace(s[|s| - 1]) then
      var t := s[..|s| - 1];
      var n := 1 + TrailingSpaces(t);
      assert s[|s| - n..] == t[|t| - (n - 1)..] + [s[|s| - 1]];
      n
    else 0
  }

  /** Python's `s.strip()`: `s` with its leading and trailing whitespace removed. */
  function Strip(s: string): string {
    var t := s[LeadingSpaces(s)..];
    t[..|t| - TrailingSpaces(t)]
  }

  /**
   * The stripped string is no longer than `s`, neither starts nor ends with
   * whitespace, and is the run of `s` that starts after its leading
   * whitespace, everything before and after it being whitespace.
   */
  lemma StripShape(s: string)
    ensures |Strip(s)| <= |s|
    ensures Strip(s) == [] || (!IsSpace(Strip(s)[0]) && !IsSpace(Strip(s)[|Strip(s)| - 1]))
    ensures OccursAt(s, Strip(s), LeadingSpaces(s))
    ensures AllSpace(s[..LeadingSpaces(s)])
    ensures AllSpace(s[LeadingSpaces(s) + |Strip(s)|..])
  {
    var a := LeadingSpaces(s);
    var t := s[a..];
    var n := TrailingSpaces(t);
    var r := Strip(s);
    assert r == s[a..a + |r|];
    assert s[a + |r|..] == t[|t| - n..];
    if r != [] {
      assert r[0] == s[a];
      assert r[|r| - 1] == t[|t| - n - 1];
    }
  }

  /** A string without surrounding whitespace is left alone by `strip`. */
  lemma StripTrimmed(s: string)
    requires s == [] || (!IsSpace(s[0]) && !IsSpace(s[|s| - 1]))
    ensures Strip(s) == s
  {
    if s != [] {
      assert LeadingSpaces(s) == 0;
      assert s[0..] == s;
      assert TrailingSpaces(s) == 0;
      assert s[..|s|] == s;
    }
  }

  /** `strip` is idempotent. */
  lemma StripIdempotent(s: string)
    ensures Strip(Strip(s)) == Strip(s)
  {
    StripShape(s);
    StripTrimmed(Strip(s));
  }

  // ---------------------------------------------------------------- digits

  function DigitChar(d: nat): (c: char)
    requires d < 10
    ensures IsAsciiDigit(c)
  {
    ('0' as int + d) as char
  }

  function DigitValue(c: char): (d: nat)
    requires IsAsciiDigit(c)
    ensures d < 10 && DigitChar(d) == c
  {
    c as int - '0' as int
  }

  predicate AllDigits(s: string) {
    forall i :: 0 <= i < |s| ==> IsAsciiDigit(s[i])
  }

  /** The shortest decimal spelling of `n` (`"0"` for zero). */
  function Decimal(n: nat): (s: string)
    ensures 1 <= |s| && AllDigits(s)
  {
    if n < 10 then [DigitChar(n)] else Decimal(n / 10) + [DigitChar(n % 10)]
  }

  /** `s` padded on the left with `'0'` up to at least `width` characters. */
  function ZeroPad(s: string, width: nat): (r: string)
    ensures |r| == if |s| < width then width else |s|
    ensures AllDigits(s) ==> AllDigits(r)
    decreases width - |s|
  {
    if |s| < width then ZeroPad(['0'] + s, width) else s
  }

  /** The number a string of decimal digits denotes (leading zeros allowed). */
  function DecimalValue(s: string): nat
    requires AllDigits(s)
  {
    if s == [] then 0 else DecimalValue(s[..|s| - 1]) * 10 + DigitValue(s[|s| - 1])
  }

  /** Reading back a decimal spelling gives the number. */
  lemma {:induction false} DecimalRoundTrip(n: nat)
    ensures DecimalValue(Decimal(n)) == n
  {
    if n >= 10 {
      DecimalRoundTrip(n / 10);
      var s := Decimal(n);
      assert s[..|s| - 1] == Decimal(n / 10);
    }
  }

  /** A leading `'0'` does not change the value. */
  lemma {:induction false} LeadingZeroValue(s: string)
    requires AllDigits(s)
    ensures DecimalValue(['0'] + s) == DecimalValue(s)
    decreases |s|
  {
    if s != [] {
      var t := ['0'] + s;
      assert t[..|t| - 1] == ['0'] + s[..|s| - 1];
      LeadingZeroValue(s[..|s| - 1]);
    }
  }

  /** Zero-padding does not change the value. */
  lemma {:induction false} ZeroPadValue(s: string, width: nat)
    requires AllDigits(s)
    ensures DecimalValue(ZeroPad(s, width)) == DecimalValue(s)
    decreases width - |s|
  {
    if |s| < width {
      LeadingZeroValue(s);
      ZeroPadValue(['0'] + s, width);
    }
  }

  function Pow10(k: nat): (p: nat)
    ensures p >= 1
  {
    if k == 0 then 1 else 10 * Pow10(k - 1)
  }

  /** A number below `10^k` (k >= 1) has at most `k` decimal digits. */
  lemma {:induction false} DecimalLength(n: nat, k: nat)
    requires 1 <= k && n < Pow10(k)
    ensures |Decimal(n)| <= k
  {
    if n >= 10 {
      assert Pow10(1) == 10;
      DecimalLength(n / 10, k - 1);
    }
  }
}
